=== FILE: README.md ===
# NDA Converter: a Dafny model of its core

NDA Converter turns an English PDF into one that carries Hindi text.

On the server:

- text is collected from configured rectangular regions of each page;
- each text is translated with its numbers protected;
- the original text is covered with a white box;
- the Hindi text is written into the padded box, at the largest font size from 10 down to 6 that fits.

In the browser:

- the upload page sends the chosen PDF to the server, has it translated and downloads the result;
- a preview page shows a translated PDF handed over through the session store.

This project models the pure logic of those steps as Dafny datatypes and functions, and proves what they promise. There is one module per source file:

| module | file | models |
|---|---|---|
| `DocsApp` | `docs_app.dfy` | the upload page's state machine: file choice, upload then translate, download, reset |
| `PreviewPage` | `preview_page.dfy` | the preview page's mount effect and its download button |
| `RegionTextExtractor` | `region_text_extractor.dfy` | `extract_text_from_regions`: overlap test, collection, joining |
| `PdfTextExtractor` | `pdf_text_extractor.dfy` | `extract_text_blocks`: block filtering and tagging |
| `Translator` | `translator.dfy` | `translate_to_hindi`: blank short-circuit, number protection and restoration |
| `RegionTranslator` | `region_translator.dfy` | `translate_regions`: the record mapping |
| `PdfModifier` | `pdf_modifier.dfy` | `pad_bbox`, and the per-page plan of `apply_translations_to_pdf` as a log of drawing operations |

Three modules are shared: `Wrappers` (`Option`), `Text` (Python's `str.isspace`, `str.strip` and `" ".join`) and `Geometry` (rectangles).

The foreign collaborators are parameters of the model.

- The translation service is any function `string -> string`.
- `insert_textbox`'s result is an oracle `Fits` that says whether a text fits a box at a font size.
- The two HTTP responses of the upload page are inputs `Ok(body) | Fail`.
- PyMuPDF's page structures are plain input data.
- Browser side effects are recorded in an event log: `setStatus`, requests, object-URL creation, anchor clicks and revocation.

Some behaviours of the code are easy to miss. The model keeps them as written:

- A failed upload or translation returns the page to `idle`. The chosen file and its name stay as they were.
- While the file is being sent, the page's status is `uploading`.
- The preview page only reads the session store. It never removes the handed-over PDF, not even when that PDF is missing or empty.
- The automatic download after a successful translation takes its name from `fileName` as the handler's render saw it. That is the name from before the current selection, so a first upload is always saved as `translated_document.pdf`. `DocsApp.SuccessPath` states this.

## Model

| member | source | states |
|---|---|---|
| Text.Strip | region_text_extractor.py:21 | `str.strip`: the result has no whitespace at either end, is no longer than the input, and is empty exactly when the input is all whitespace (Python's `isspace` set) |
| Text.StripCharacterized | region_text_extractor.py:21 | whichever margins remove only whitespace and leave a core with no whitespace at either end, `Strip` returns exactly that core |
| Text.JoinSpace | region_text_extractor.py:41 | `" ".join`: the parts in order, separated by single spaces. `JoinSpaceSnoc` and `JoinSpaceOfStripped` are its contracts |
| Text.JoinSpaceSnoc | region_text_extractor.py:35-41 | joining the collected list after one more append adds one space and the new text at the end |
| Text.JoinSpaceOfStripped | region_text_extractor.py:41 | joining non-empty stripped texts gives "" exactly for an empty list, and otherwise a stripped text |
| RegionTextExtractor.IntersectsIffCommonPoint | region_text_extractor.py:27-32 | for ordered boxes the source's "not strictly left, right, above or below" test holds exactly when the closed boxes share a point, so touching edges count |
| RegionTextExtractor.Intersects | region_text_extractor.py:27-32 | the source's overlap test, that the span is not wholly left of, right of, above or below the region. `IntersectsIffCommonPoint` relates it to closed-box overlap |
| RegionTextExtractor.SpanTexts | region_text_extractor.py:19-35 | what a line's spans contribute are non-empty stripped texts, at most one per span |
| RegionTextExtractor.LineTexts | region_text_extractor.py:18-35 | what a block's lines contribute are non-empty stripped texts |
| RegionTextExtractor.BlockTexts | region_text_extractor.py:14-35 | what a page's blocks contribute are non-empty stripped texts |
| RegionTextExtractor.SpanTextsAppend | region_text_extractor.py:19-35 | collection distributes over concatenated span lists and keeps their order |
| RegionTextExtractor.LineTextsAreSpanTexts | region_text_extractor.py:18-35 | the line loop collects what filtering the flat list of the lines' spans collects |
| RegionTextExtractor.BlockTextsAreSpanTexts | region_text_extractor.py:14-35 | the block, line and span loops collect exactly what filtering the flat list of all spans of text blocks collects, in order |
| RegionTextExtractor.SpanTextsEmpty | region_text_extractor.py:21-35 | nothing is collected exactly when no span has non-blank text that meets the region |
| RegionTextExtractor.SpanTextsSound | region_text_extractor.py:19-35 | every collected text is the stripped text of a span that meets the region |
| RegionTextExtractor.BlockTextsAppend | region_text_extractor.py:14-16 | collection distributes over concatenated block lists |
| RegionTextExtractor.NonTextBlockIgnored | region_text_extractor.py:15-16 | a block whose type is not 0 can be removed from anywhere in the page without changing what is collected |
| RegionTextExtractor.Entry | region_text_extractor.py:11-41 | a record copies the page index, region name and rect unchanged; its text is stripped, and it is empty exactly when no span of a text block contributes |
| RegionTextExtractor.EntryText | region_text_extractor.py:12-41 | a record's text is the contributing spans' stripped texts in block, line and span order joined by single spaces, each from a contributing span |
| RegionTextExtractor.PageEntries | region_text_extractor.py:10-42 | a page yields one record per region, in region order |
| RegionTextExtractor.ExtractTextFromRegions | region_text_extractor.py:7-44 | the output has one record per (page, region) pair |
| RegionTextExtractor.ExtractionLength | region_text_extractor.py:7-42 | the output length, counted page by page, is the number of regions once per page |
| RegionTextExtractor.ExtractionAt | region_text_extractor.py:7-42 | for every page p and region k, the output has an element at p * (number of regions) + k, and it is the record of page p for region k |
| RegionTextExtractor.ExtractionLayout | region_text_extractor.py:7-42 | the record for page p and region k sits at index p * (number of regions) + k and is that page's record for that region: page-major, then region order |
| PdfTextExtractor.PageBlocks | pdf_text_extractor.py:9-16 | a page's records number at most its blocks, carry the page index, and have non-empty stripped text |
| PdfTextExtractor.ExtractTextBlocks | pdf_text_extractor.py:3-18 | every record has a page index below the page count and non-empty stripped text |
| PdfTextExtractor.PageOriginsLength | pdf_text_extractor.py:9-16 | a page yields one record per kept block |
| PdfTextExtractor.PageOriginsSound | pdf_text_extractor.py:9-16 | the j-th record of a page is the record of its j-th kept block: that page index, the block's first four coordinates as bbox, and its stripped text |
| PdfTextExtractor.PageOriginsOrdered | pdf_text_extractor.py:9-12 | within a page the records follow block order strictly |
| PdfTextExtractor.PageOriginsOnPage | pdf_text_extractor.py:7-12 | a page's records all come from that page |
| PdfTextExtractor.PageOriginsComplete | pdf_text_extractor.py:9-16 | every block of the page with non-blank text gives a record |
| PdfTextExtractor.OriginsSound | pdf_text_extractor.py:7-16 | each output record is the record of a kept block at a valid (page, block) position |
| PdfTextExtractor.OriginsOrdered | pdf_text_extractor.py:7-12 | output positions increase strictly: page order, then block order |
| PdfTextExtractor.OriginsComplete | pdf_text_extractor.py:7-16 | every kept block of every page is in the output |
| PdfTextExtractor.OriginsSpec | pdf_text_extractor.py:3-18 | the output is exactly the blocks with non-blank text, in document order, each recorded with its page, box and stripped text |
| Translator.DigitRun | translator.py:11-15 | the length of the maximal digit run at the start of a text |
| Translator.Protect | translator.py:11-15 | each maximal run of digits is replaced by `__NUM_<run>__` and every other character is copied. Its properties are the `Protect…` lemmas below, and `RestoreProtect` inverts it |
| Translator.ProtectRun | translator.py:11-15 | a text that is one digit run becomes exactly `__NUM_<run>__` |
| Translator.ProtectKeeps | translator.py:11-15 | a character that is not a digit is copied |
| Translator.ProtectAppend | translator.py:11-15 | protection works piecewise at any cut that does not split a digit run |
| Translator.ProtectReplacesRun | translator.py:11-15 | a maximal digit run anywhere in the text is replaced by its placeholder and the text around it is protected independently |
| Translator.ProtectWithoutDigits | translator.py:11-15 | a text without digits passes protection unchanged |
| Translator.NoEarlyDigit | translator.py:11-15 | the first six characters of a protected text are never digits |
| Translator.ProtectedDigitsArePlaceholders | translator.py:11-15 | after protection every digit lies inside the digit group of a `__NUM_…__` placeholder |
| Translator.PlaceholderAt | translator.py:24-28 | a match of `__NUM_(\d+)__` at the start of a text has a non-empty digit group and spans a whole placeholder |
| Translator.Restore | translator.py:24-28 | each `__NUM_<digits>__` is replaced by its digits, scanning left to right, and all else is copied. `RestoreReplacesPlaceholder` pins it on every text, and `RestoreWithoutPlaceholder` and `RestoreProtect` are special cases |
| Translator.PlaceholderAtExact | translator.py:24-28 | the pattern matches at the start of a text exactly when some prefix is a whole placeholder, and then it consumes that prefix |
| Translator.PlaceholderAtWrap | translator.py:24-28 | a placeholder produced by protection is matched whole, whatever follows it |
| Translator.RestoreWithoutPlaceholder | translator.py:24-28 | a text containing no placeholder is left unchanged by restoration |
| Translator.RestoreReplacesPlaceholder | translator.py:24-28 | for any text: when the first placeholder match starts right after a prefix x, restoration copies x, replaces the placeholder by its digits and continues after it |
| Translator.RestoreMixedReply | translator.py:24-28 | a reply mixing a bare digit and a placeholder, "5 __NUM_3__", is restored to "5 3" |
| Translator.RestoreProtect | translator.py:10-28 | restoring a protected text gives the original text back |
| Translator.TranslateToHindi | translator.py:6-30 | blank text is returned unchanged without calling the service. Any other text is protected and sent to the service exactly once, and the result is the service's reply with its placeholders restored. What the service receives restores to the input |
| Translator.ReplyIsReturned | translator.py:17-30 | for non-blank text, a service reply without placeholders is returned exactly as the service gave it |
| Translator.IdentityTranslation | translator.py:6-30 | with a service that returns its input, `translate_to_hindi` is the identity on every text |
| Translator.ServiceSeesNoBareDigits | translator.py:10-21 | no digit reaches the translation service outside a placeholder |
| RegionTranslator.TranslateRegions | region_translator.py:3-17 | same length and order as the input; page, region name and rect copied; `english_text` is the input text; `hindi_text` is the translation of that text |
| RegionTranslator.OriginalsOfTranslation | region_translator.py:6-15 | dropping the Hindi text from each output record gives back the input records exactly |
| RegionTranslator.IdentityServiceKeepsText | region_translator.py:7-14 | with a service that returns its input, every Hindi text equals its English text, numbers included |
| PdfModifier.PadBox | pdf_modifier.py:13-19 | x0 and x1 are kept; y0 moves up by the top padding and y1 down by the bottom padding; with paddings that are not negative the padded box encloses the original |
| PdfModifier.PadBoxInverse | pdf_modifier.py:13-19 | padding by the negated amounts gives the original box back |
| PdfModifier.DefaultPadding | pdf_modifier.py:13-19 | with the defaults the box gains 2 units above and 14 below; it encloses the original, stays well formed and is 16 units taller |
| PdfModifier.Attempts | pdf_modifier.py:61-74 | the `insert_textbox` calls from the given size down to 6, stopping after the first that fits. `AttemptsShape`, `AttemptsStop` and `FullRangeAttempts` are its contracts |
| PdfModifier.TranslatedApplies | pdf_modifier.py:38-44 | a record of `translate_regions` is drawn on a page exactly when it belongs to that page and its Hindi text is not all whitespace; the stripped Hindi text is what is written |
| PdfModifier.FirstFitSpec | pdf_modifier.py:61-74 | the reference fallback finds a size exactly when some size in range fits, and it is the largest such size |
| PdfModifier.AttemptsShape | pdf_modifier.py:61-74 | attempts are at sizes 10, 9, 8, … in turn, never below 6, with the same box and text, and every attempt but the last fails |
| PdfModifier.AttemptsStop | pdf_modifier.py:61-74 | the last attempt is at the first size that fits, or at size 6 when none fits |
| PdfModifier.FullRangeAttempts | pdf_modifier.py:61-74 | one to five attempts at strictly descending sizes starting at 10; the last fits exactly when some size fits |
| PdfModifier.RegionOpsEmpty | pdf_modifier.py:38-44 | a region yields operations exactly when it is on this page and its Hindi text, missing read as "", is not blank after stripping |
| PdfModifier.RegionOpsSpec | pdf_modifier.py:46-81 | for an applied region the white fill of the padded box comes first; then come the insert attempts with the stripped Hindi text in that box; a single warning closes the list exactly when no size fits; everything is on this page |
| PdfModifier.RegionOps | pdf_modifier.py:38-81 | one region's drawing operations on one page. `RegionOpsEmpty`, `RegionOpsSpec` and `RegionOpsSummary` are its contracts |
| PdfModifier.RegionOpsSummary | pdf_modifier.py:38-81 | one region adds exactly its own fill box if it applies, and exactly its own warning if it applies and nothing fits |
| PdfModifier.PageOpsSpec | pdf_modifier.py:38-81 | on each page the fills are exactly the padded boxes of the applying regions in order, and the warnings are exactly the applying regions that fit at no size |
| PdfModifier.PageOps | pdf_modifier.py:38-81 | the operations for one page: the regions in order. `PageOpsSpec`, `PageOpsAppend` and `PageOpsOnPage` are its contracts |
| PdfModifier.PageOpsAppend | pdf_modifier.py:38-81 | regions are processed independently and in order, so a region that does not fit does not stop the regions after it |
| PdfModifier.InapplicableRegionIgnored | pdf_modifier.py:38-44 | a region of another page, or one with blank Hindi text, can be removed without changing what is drawn |
| PdfModifier.PageOpsOnPage | pdf_modifier.py:35-81 | every operation planned for a page is on that page |
| PdfModifier.ApplyTranslationsOnPages | pdf_modifier.py:35-81 | only pages of the document are drawn on |
| PdfModifier.ApplyTranslations | pdf_modifier.py:35-83 | the operations for the whole document: the pages in order. `ApplyTranslationsPerPage` ties what is drawn on each page to that page's plan; `ApplyTranslationsOnPages`, `OffDocumentPagesUntouched` and `ApplyTranslationsPageOrder` complete its contract |
| PdfModifier.ApplyTranslationsPerPage | pdf_modifier.py:35-81 | for every page p of the document, the operations on page p are exactly, and in order, the plan of page p, which draws only the regions whose page is p |
| PdfModifier.OffDocumentPagesUntouched | pdf_modifier.py:35-40 | no operation is on a page outside the document |
| PdfModifier.ApplyTranslationsPageOrder | pdf_modifier.py:35-81 | the operations are grouped by page in page order |
| DocsApp.HandleFileChange | frontend/components/bharat-docs-app.tsx:19-26 | a missing selection, or one whose type is not `application/pdf`, changes nothing and logs nothing |
| DocsApp.RejectedSelection | frontend/components/bharat-docs-app.tsx:19-26 | a rejected selection sets no status, issues no request and starts no download |
| DocsApp.HandoffViews | frontend/components/bharat-docs-app.tsx:59-66 | an object URL handoff creates one URL, starts one download from it while it is still live, then revokes it, so no URL is left live |
| DocsApp.SimulateUpload | frontend/components/bharat-docs-app.tsx:28-74 | upload, then translate, then the automatic download, with a return to idle on any failure. `SuccessPath`, `UploadFailure`, `TranslateFailure` and `TranslateOnlyAfterUpload` are its contracts |
| DocsApp.SuccessPath | frontend/components/bharat-docs-app.tsx:28-68 | when both requests succeed the statuses run `uploading`, `processing`, `complete` and the upload request precedes the translate request; the stored translated PDF is the translate response body; it is downloaded once, named from the `fileName` of the handler's render; no URL stays live |
| DocsApp.UploadFailure | frontend/components/bharat-docs-app.tsx:31-73 | a failed upload sets `uploading` then `idle`, never requests a translation, downloads nothing, and keeps the chosen file, its name and the stored translation |
| DocsApp.TranslateFailure | frontend/components/bharat-docs-app.tsx:44-73 | a failed translation sets `uploading`, `processing`, `idle`; both requests were made; no translated PDF is stored; the chosen file and name are kept |
| DocsApp.TranslateOnlyAfterUpload | frontend/components/bharat-docs-app.tsx:37-51 | the translate request is made exactly when the upload response is ok, and the upload request always comes first |
| DocsApp.HandleDownload | frontend/components/bharat-docs-app.tsx:76-89 | download changes no state other than the URL counter |
| DocsApp.DownloadChoice | frontend/components/bharat-docs-app.tsx:76-89 | download prefers the translated PDF, named `translated_<fileName or "document">.pdf`; otherwise it offers the uploaded file as `processed_<fileName>`; with neither it does nothing; no URL stays live |
| DocsApp.HandleReset | frontend/components/bharat-docs-app.tsx:91-99 | reset sets status `idle` and `fileName` to "", clears the file and the translation, and makes no request or download |
| DocsApp.InitialInv | frontend/components/bharat-docs-app.tsx:13-16 | the first render is idle with nothing chosen and nothing translated |
| DocsApp.Step | frontend/components/bharat-docs-app.tsx:133-205 | one user action, limited to the controls rendered in the current status: the file input while idle, the two buttons when complete. `StepInv` and `RunInv` are its contracts |
| DocsApp.StepClicksLive | frontend/components/bharat-docs-app.tsx:59-87 | every download an action starts is clicked from an object URL that is live at that moment, before its revocation |
| DocsApp.StepInv | frontend/components/bharat-docs-app.tsx:19-99 | every action the rendered controls allow keeps the page idle without a translation, or complete with a file and its translation, with the shown name that of the chosen PDF; every download is from a live URL and no object URL is left live |
| DocsApp.RunInv | frontend/components/bharat-docs-app.tsx:19-99 | any sequence of user actions keeps that invariant, starts every download from a live URL, and leaves no object URL live |
| DocsApp.DownloadFromCompleteIsTranslated | frontend/components/bharat-docs-app.tsx:76-89 | whenever the download button is shown it hands out the translated PDF under the translated name |
| PreviewPage.Mount | frontend/app/preview/page.tsx:12-22 | mounting only reads the store; it redirects to "/" exactly when the stored PDF is missing or empty, and then leaves the state alone; otherwise it stays and shows the stored PDF |
| PreviewPage.Download | frontend/app/preview/page.tsx:24-32 | download does nothing exactly when there is no data URL; otherwise it clicks once on the data URL under the page's file name |
| PreviewPage.MountIsReadOnly | frontend/app/preview/page.tsx:12-22 | loading the page never writes or clears the store |
| PreviewPage.MountName | frontend/app/preview/page.tsx:9-21 | the download name is the stored name when it is not empty, else `translated_document.pdf` |
| PreviewPage.Handover | frontend/app/preview/page.tsx:9-32 | after a non-empty PDF and a name are stored, the page shows that PDF and downloads it under that name, or under the default name when the stored name is empty |
| PreviewPage.MountIdempotent | frontend/app/preview/page.tsx:12-22 | running the mount effect again from the same store gives the same state |
| PreviewPage.NoDataNoDownload | frontend/app/preview/page.tsx:13-25 | without a stored PDF the page redirects and its download does nothing |

## Left out

- PyMuPDF is not modelled: `fitz.open`, `get_text`, `draw_rect`, `insert_textbox` and `save`. Page dictionaries and block tuples are input data. The drawing calls become the operation log of `PdfModifier`.
- `PdfModifier.Fits`: the oracle sees the page index, box, text and font size, but not what earlier calls already drew on the page.
- The module-level check that the font file exists, and the font name and path constants, are not modelled. They concern the file system.
- The googletrans call is the parameter `translate`. Its network behaviour is not modelled.
- Translator.Protect: `\d` is modelled as the ASCII digits 0-9. Python's `re` also matches other Unicode decimal digits, so for such text the model is narrower than the source.
- Translator.Restore: it uses the same ASCII-only digit test, and so does `Translator.PlaceholderAt`. If the service replies with a placeholder whose digits are, say, Devanagari (`__NUM_१२__`), the source replaces it by `१२`, but the model leaves the placeholder unchanged. `RestoreProtect` is not affected, because protection only ever wraps ASCII runs in the model.
- Coordinates are mathematical reals. Floating-point rounding in the overlap test and the padding is not modelled.
- A `hindi_text` key that is present with the value `None` is not modelled. The source would raise on `.strip()`.
- app.py (Flask routing, CORS, upload folder handling) is not part of this model. It is I/O plumbing.
- pdf_reader.py is not part of this model. It wraps `fitz.open`.
- The browser APIs are not modelled: `fetch`, `FormData`, `process.env`, `URL.createObjectURL` and DOM anchors. They are replaced by response inputs and the event log. Object URLs are numbered by a counter.
- React scheduling and state batching are not modelled. Each handler runs as one atomic step, and no other handler can interleave while an upload is pending. The stale closure read of `fileName` is the one render effect that is kept.
- A failure of `translateRes.blob()` would also land in the `catch` block. It is not modelled separately from a failed translate response.
- Clearing the file input in `handleReset` is left out. The input is rendered only while idle, and reset is reachable only when complete, so the reference is then null.
- The rendering (JSX, styling, animations, footer) is left out, and so is the preview page's Back button, which only navigates. The model keeps one thing from the rendering: which controls exist in which status. `DocsApp.Step` uses it as a guard.
- Error messages and `console.error`/`print` text are not modelled. A failure is logged as an `ErrorLogged` event, and an overlay warning as a `Warn` operation that carries the page and region name.

=== FILE: docs_app.dfy ===
/** The upload page of the client (frontend/components/bharat-docs-app.tsx).

    The component holds a status, the chosen file and its name, and the translated
    PDF once the server has returned it. Each handler is modelled as one atomic step
    from a state to a state plus the log of what it did to the outside world: the
    `setStatus` calls in order, the two HTTP requests, and the object URLs it
    created, clicked and revoked. The HTTP responses are inputs of the step. */
module DocsApp {
  import opened Wrappers

  /** The four screens of the page: waiting for a file, sending it, waiting for
      the translation, and offering the result. */
  datatype Status = Idle | Uploading | Processing | Complete

  /** A `File` from the file input: its name, its MIME type and its contents. */
  datatype File = File(name: string, mime: string, bytes: seq<bv8>)

  /** The body of the translate response. */
  datatype Blob = Blob(bytes: seq<bv8>)

  /** An HTTP response: `ok` with its body, or a failure (a status that is not ok,
      or a request that rejects). */
  datatype Response = Ok(body: Blob) | Fail

  /** What an object URL points at. */
  datatype Payload = BlobPayload(blob: Blob) | FilePayload(file: File)

  /** What a handler does outside the component's state. */
  datatype Event =
    | StatusSet(status: Status)
    | UploadRequest(file: File)
    | TranslateRequest
    | UrlCreated(url: nat, payload: Payload)
    | AnchorClicked(url: nat, download: string)
    | UrlRevoked(url: nat)
    | ErrorLogged

  /** The component state; `nextUrl` numbers the object URLs the browser hands out. */
  datatype App = App(
    status: Status,
    fileName: string,
    uploadedFile: Option<File>,
    translatedBlob: Option<Blob>,
    nextUrl: nat)

  /** The state after a handler and the events it produced, in order. */
  datatype Outcome = Outcome(app: App, events: seq<Event>)

  const PdfType := "application/pdf"

  /** The state on first render. */
  const Initial := App(Idle, "", None, None, 0)

  /** The download name for the translated PDF: the file name, or the word
      "document" when there is none, between the prefix "translated_" and the
      suffix ".pdf". */
  function TranslatedName(fileName: string): string {
    "translated_" + (if fileName == "" then "document" else fileName) + ".pdf"
  }

  // ---------------------------------------------------------------------------
  // Views of an event log

  /** The events of `events` mapped through `f` and concatenated, in order. */
  function Project<T>(f: Event -> seq<T>, events: seq<Event>): seq<T> {
    if |events| == 0 then [] else f(events[0]) + Project(f, events[1..])
  }

  function StatusOf(e: Event): seq<Status> {
    if e.StatusSet? then [e.status] else []
  }

  function RequestOf(e: Event): seq<Event> {
    if e.UploadRequest? || e.TranslateRequest? then [e] else []
  }

  function CreatedOf(e: Event): seq<(nat, Payload)> {
    if e.UrlCreated? then [(e.url, e.payload)] else []
  }

  function ClickOf(e: Event): seq<(nat, string)> {
    if e.AnchorClicked? then [(e.url, e.download)] else []
  }

  /** The statuses set, in order. */
  function Statuses(events: seq<Event>): seq<Status> {
    Project(StatusOf, events)
  }

  /** The HTTP requests issued, in order. */
  function Requests(events: seq<Event>): seq<Event> {
    Project(RequestOf, events)
  }

  /** The object URLs created and what they point at, in order. */
  function Created(events: seq<Event>): seq<(nat, Payload)> {
    Project(CreatedOf, events)
  }

  /** The downloads started by anchor clicks: the URL and the file name, in order. */
  function Clicks(events: seq<Event>): seq<(nat, string)> {
    Project(ClickOf, events)
  }

  /** The object URLs live after event `e`, when `live` were live before it. */
  function LiveAfter(live: set<nat>, e: Event): set<nat> {
    if e.UrlCreated? then live + {e.url} else if e.UrlRevoked? then live - {e.url} else live
  }

  /** The object URLs still live after `events`, starting from the live set `live`. */
  function LiveFrom(live: set<nat>, events: seq<Event>): set<nat>
    decreases |events|
  {
    if |events| == 0 then live else LiveFrom(LiveAfter(live, events[0]), events[1..])
  }

  /** Every anchor click in `events` downloads from an object URL that is live at
      that moment, starting from the live set `live`. */
  predicate ClicksLive(live: set<nat>, events: seq<Event>)
    decreases |events|
  {
    |events| == 0
    || (&& (events[0].AnchorClicked? ==> events[0].url in live)
        && ClicksLive(LiveAfter(live, events[0]), events[1..]))
  }

  lemma {:induction false} ClicksLiveAppend(live: set<nat>, a: seq<Event>, b: seq<Event>)
    ensures ClicksLive(live, a + b) <==> ClicksLive(live, a) && ClicksLive(LiveFrom(live, a), b)
    decreases |a|
  {
    if |a| == 0 {
      assert a + b == b;
    } else {
      assert (a + b)[0] == a[0];
      assert (a + b)[1..] == a[1..] + b;
      ClicksLiveAppend(LiveAfter(live, a[0]), a[1..], b);
    }
  }

  /** A log without clicks has no click from a dead URL. */
  lemma {:induction false} NoClicksLive(live: set<nat>, events: seq<Event>)
    requires forall k | 0 <= k < |events| :: !events[k].AnchorClicked?
    ensures ClicksLive(live, events)
    decreases |events|
  {
    if |events| > 0 {
      NoClicksLive(LiveAfter(live, events[0]), events[1..]);
    }
  }

  lemma {:induction false} ProjectAppend<T>(f: Event -> seq<T>, a: seq<Event>, b: seq<Event>)
    ensures Project(f, a + b) == Project(f, a) + Project(f, b)
    decreases |a|
  {
    if |a| == 0 {
      assert a + b == b;
    } else {
      assert (a + b)[1..] == a[1..] + b;
      ProjectAppend(f, a[1..], b);
    }
  }

  lemma {:induction false} LiveAppend(live: set<nat>, a: seq<Event>, b: seq<Event>)
    ensures LiveFrom(live, a + b) == LiveFrom(LiveFrom(live, a), b)
    decreases |a|
  {
    if |a| == 0 {
      assert a + b == b;
    } else {
      assert (a + b)[1..] == a[1..] + b;
      LiveAppend(LiveAfter(live, a[0]), a[1..], b);
    }
  }

  lemma Live1(live: set<nat>, x: Event)
    ensures LiveFrom(live, [x]) == LiveAfter(live, x)
  {
    assert [x][1..] == [];
  }

  lemma Project1<T>(f: Event -> seq<T>, x: Event)
    ensures Project(f, [x]) == f(x)
  {
    assert [x][1..] == [];
  }

  lemma Project2<T>(f: Event -> seq<T>, x: Event, y: Event)
    ensures Project(f, [x, y]) == f(x) + f(y)
  {
    assert [x, y][1..] == [y];
    Project1(f, y);
  }

  lemma Project3<T>(f: Event -> seq<T>, x: Event, y: Event, z: Event)
    ensures Project(f, [x, y, z]) == f(x) + f(y) + f(z)
  {
    assert [x, y, z][1..] == [y, z];
    Project2(f, y, z);
  }

  // ---------------------------------------------------------------------------
  // The pieces of a handler's log

  /** `setStatus("uploading")` and the `POST /upload` with the file. */
  function UploadStarted(file: File): seq<Event> {
    [StatusSet(Uploading), UploadRequest(file)]
  }

  /** `setStatus("processing")` and the `POST /translate-pdf`. */
  function TranslateStarted(): seq<Event> {
    [StatusSet(Processing), TranslateRequest]
  }

  /** The `catch` block: the error is logged and the status goes back to idle. */
  function Failed(): seq<Event> {
    [ErrorLogged, StatusSet(Idle)]
  }

  /** An object URL for `payload` is created, clicked as a download named `name`,
      and revoked. */
  function Handoff(url: nat, payload: Payload, name: string): seq<Event> {
    [UrlCreated(url, payload), AnchorClicked(url, name), UrlRevoked(url)]
  }

  /** A handoff creates one URL, starts one download from it while it is live,
      sets no status, issues no request and leaves no URL live that was not live
      before. */
  lemma HandoffViews(url: nat, payload: Payload, name: string, live: set<nat>)
    requires url !in live
    ensures Statuses(Handoff(url, payload, name)) == []
    ensures Requests(Handoff(url, payload, name)) == []
    ensures Created(Handoff(url, payload, name)) == [(url, payload)]
    ensures Clicks(Handoff(url, payload, name)) == [(url, name)]
    ensures LiveFrom(live, Handoff(url, payload, name)) == live
    ensures ClicksLive(live, Handoff(url, payload, name))
  {
    var h := Handoff(url, payload, name);
    Project3(StatusOf, h[0], h[1], h[2]);
    Project3(RequestOf, h[0], h[1], h[2]);
    Project3(CreatedOf, h[0], h[1], h[2]);
    Project3(ClickOf, h[0], h[1], h[2]);
    assert h == [h[0]] + [h[1]] + [h[2]];
    LiveAppend(live, [h[0]] + [h[1]], [h[2]]);
    LiveAppend(live, [h[0]], [h[1]]);
    Live1(live, h[0]);
    Live1(live + {url}, h[1]);
    Live1(live + {url}, h[2]);
    assert h[1..] == [h[1], h[2]] && [h[1], h[2]][1..] == [h[2]] && [h[2]][1..] == [];
    assert ClicksLive(live + {url}, [h[2]]);
    assert ClicksLive(live + {url}, [h[1], h[2]]);
  }

  /** A log piece of two events that creates and revokes no URL leaves the live set alone. */
  lemma LiveQuiet2(live: set<nat>, x: Event, y: Event)
    requires !x.UrlCreated? && !x.UrlRevoked? && !y.UrlCreated? && !y.UrlRevoked?
    ensures LiveFrom(live, [x, y]) == live
  {
    assert [x, y] == [x] + [y];
    LiveAppend(live, [x], [y]);
    Live1(live, x);
    Live1(live, y);
  }

  // ---------------------------------------------------------------------------
  // Handlers

  /** `simulateUpload(file)`; `closureName` is the `fileName` of the render whose
      handler started the upload, which names the automatic download. */
  function SimulateUpload(app: App, file: File, closureName: string, upload: Response, translate: Response): Outcome {
    if upload.Fail? then
      Outcome(app.(status := Idle), UploadStarted(file) + Failed())
    else if translate.Fail? then
      Outcome(app.(status := Idle), UploadStarted(file) + TranslateStarted() + Failed())
    else
      var blob := translate.body;
      var url := app.nextUrl;
      Outcome(
        app.(translatedBlob := Some(blob), nextUrl := url + 1, status := Complete),
        UploadStarted(file) + TranslateStarted() + Handoff(url, BlobPayload(blob), TranslatedName(closureName))
          + [StatusSet(Complete)])
  }

  /** `handleFileChange`: only a present PDF is taken; it becomes the chosen file and
      is uploaded at once. The file input is only rendered while idle. */
  function HandleFileChange(app: App, selected: Option<File>, upload: Response, translate: Response): (r: Outcome)
    requires app.status == Idle
    ensures selected.None? || selected.value.mime != PdfType ==> r == Outcome(app, [])
  {
    match selected
    case Some(file) =>
      if file.mime == PdfType then
        SimulateUpload(app.(fileName := file.name, uploadedFile := Some(file)), file, app.fileName, upload, translate)
      else Outcome(app, [])
    case None => Outcome(app, [])
  }

  /** `handleDownload`: the translated PDF if there is one, else the uploaded file,
      else nothing. */
  function HandleDownload(app: App): (r: Outcome)
    ensures r.app.status == app.status && r.app.fileName == app.fileName
    ensures r.app.uploadedFile == app.uploadedFile && r.app.translatedBlob == app.translatedBlob
  {
    var url := app.nextUrl;
    match app.translatedBlob
    case Some(blob) =>
      Outcome(app.(nextUrl := url + 1), Handoff(url, BlobPayload(blob), TranslatedName(app.fileName)))
    case None =>
      match app.uploadedFile
      case Some(file) =>
        Outcome(app.(nextUrl := url + 1), Handoff(url, FilePayload(file), "processed_" + app.fileName))
      case None => Outcome(app, [])
  }

  /** `handleReset`: back to the first screen with nothing chosen. Clearing the file
      input is left out: the input is not rendered while the reset button is. */
  function HandleReset(app: App): (r: Outcome)
    ensures r.app.status == Idle && r.app.fileName == ""
    ensures r.app.uploadedFile.None? && r.app.translatedBlob.None?
    ensures Statuses(r.events) == [Idle] && Requests(r.events) == [] && Clicks(r.events) == []
  {
    Project1(StatusOf, StatusSet(Idle));
    Project1(RequestOf, StatusSet(Idle));
    Project1(ClickOf, StatusSet(Idle));
    Outcome(App(Idle, "", None, None, app.nextUrl), [StatusSet(Idle)])
  }

  // ---------------------------------------------------------------------------
  // Properties of the upload

  /** A selection that is missing or not a PDF leaves the state as it is and does nothing. */
  lemma RejectedSelection(app: App, selected: Option<File>, upload: Response, translate: Response)
    requires app.status == Idle
    requires selected.None? || selected.value.mime != PdfType
    ensures var r := HandleFileChange(app, selected, upload, translate);
      r.app == app && Statuses(r.events) == [] && Requests(r.events) == [] && Clicks(r.events) == []
  {
  }

  /** When both requests succeed: the statuses go uploading, processing, complete;
      the upload request comes before the translate request; the translated PDF is
      the translate response's body; and it is downloaded once, under the name built
      from the `fileName` of the render that handled the selection, that is, the
      name from before this selection. */
  lemma SuccessPath(app: App, file: File, upload: Response, translate: Response)
    requires app.status == Idle && file.mime == PdfType
    requires upload.Ok? && translate.Ok?
    ensures var r := HandleFileChange(app, Some(file), upload, translate);
      && r.app.status == Complete
      && r.app.fileName == file.name && r.app.uploadedFile == Some(file)
      && r.app.translatedBlob == Some(translate.body)
      && Statuses(r.events) == [Uploading, Processing, Complete]
      && Requests(r.events) == [UploadRequest(file), TranslateRequest]
      && Created(r.events) == [(app.nextUrl, BlobPayload(translate.body))]
      && Clicks(r.events) == [(app.nextUrl, TranslatedName(app.fileName))]
      && LiveFrom({}, r.events) == {}
  {
    var r := HandleFileChange(app, Some(file), upload, translate);
    var url := app.nextUrl;
    var a := UploadStarted(file);
    var b := TranslateStarted();
    var c := Handoff(url, BlobPayload(translate.body), TranslatedName(app.fileName));
    var d := [StatusSet(Complete)];
    assert r.events == a + b + c + d;
    HandoffViews(url, BlobPayload(translate.body), TranslatedName(app.fileName), {});
    Project2(StatusOf, a[0], a[1]);
    Project2(StatusOf, b[0], b[1]);
    Project1(StatusOf, d[0]);
    Project2(RequestOf, a[0], a[1]);
    Project2(RequestOf, b[0], b[1]);
    Project1(RequestOf, d[0]);
    Project2(CreatedOf, a[0], a[1]);
    Project2(CreatedOf, b[0], b[1]);
    Project1(CreatedOf, d[0]);
    Project2(ClickOf, a[0], a[1]);
    Project2(ClickOf, b[0], b[1]);
    Project1(ClickOf, d[0]);
    ViewsAppend4(a, b, c, d);
    LiveQuiet2({}, a[0], a[1]);
    LiveQuiet2({}, b[0], b[1]);
    assert d[1..] == [];
    LiveAppend({}, a, b);
    LiveAppend({}, a + b, c);
    LiveAppend({}, a + b + c, d);
  }

  /** The four views distribute over a log built from four pieces. */
  lemma ViewsAppend4(a: seq<Event>, b: seq<Event>, c: seq<Event>, d: seq<Event>)
    ensures Statuses(a + b + c + d) == Statuses(a) + Statuses(b) + Statuses(c) + Statuses(d)
    ensures Requests(a + b + c + d) == Requests(a) + Requests(b) + Requests(c) + Requests(d)
    ensures Created(a + b + c + d) == Created(a) + Created(b) + Created(c) + Created(d)
    ensures Clicks(a + b + c + d) == Clicks(a) + Clicks(b) + Clicks(c) + Clicks(d)
  {
    ViewsAppend(a, b);
    ViewsAppend(a + b, c);
    ViewsAppend(a + b + c, d);
  }

  lemma ViewsAppend(a: seq<Event>, b: seq<Event>)
    ensures Statuses(a + b) == Statuses(a) + Statuses(b)
    ensures Requests(a + b) == Requests(a) + Requests(b)
    ensures Created(a + b) == Created(a) + Created(b)
    ensures Clicks(a + b) == Clicks(a) + Clicks(b)
  {
    ProjectAppend(StatusOf, a, b);
    ProjectAppend(RequestOf, a, b);
    ProjectAppend(CreatedOf, a, b);
    ProjectAppend(ClickOf, a, b);
  }

  /** When the upload fails: the statuses go uploading then idle, the translate
      request is never made, nothing is downloaded, and the chosen file and its name
      stay in the state. */
  lemma UploadFailure(app: App, file: File, translate: Response)
    requires app.status == Idle && file.mime == PdfType
    ensures var r := HandleFileChange(app, Some(file), Fail, translate);
      && r.app.status == Idle
      && r.app.fileName == file.name && r.app.uploadedFile == Some(file)
      && r.app.translatedBlob == app.translatedBlob
      && Statuses(r.events) == [Uploading, Idle]
      && Requests(r.events) == [UploadRequest(file)]
      && Clicks(r.events) == [] && LiveFrom({}, r.events) == {}
  {
    var r := HandleFileChange(app, Some(file), Fail, translate);
    var a := UploadStarted(file);
    var f := Failed();
    assert r.events == a + f;
    ViewsAppend(a, f);
    Project2(StatusOf, a[0], a[1]);
    Project2(StatusOf, f[0], f[1]);
    Project2(RequestOf, a[0], a[1]);
    Project2(RequestOf, f[0], f[1]);
    Project2(ClickOf, a[0], a[1]);
    Project2(ClickOf, f[0], f[1]);
    LiveAppend({}, a, f);
    LiveQuiet2({}, a[0], a[1]);
    LiveQuiet2({}, f[0], f[1]);
  }

  /** When the upload succeeds and the translation fails: the statuses go uploading,
      processing, idle; both requests were made; no translated PDF is stored and
      nothing is downloaded; the chosen file and its name stay in the state. */
  lemma TranslateFailure(app: App, file: File, upload: Response)
    requires app.status == Idle && file.mime == PdfType && upload.Ok?
    ensures var r := HandleFileChange(app, Some(file), upload, Fail);
      && r.app.status == Idle
      && r.app.fileName == file.name && r.app.uploadedFile == Some(file)
      && r.app.translatedBlob == app.translatedBlob
      && Statuses(r.events) == [Uploading, Processing, Idle]
      && Requests(r.events) == [UploadRequest(file), TranslateRequest]
      && Clicks(r.events) == [] && LiveFrom({}, r.events) == {}
  {
    var r := HandleFileChange(app, Some(file), upload, Fail);
    var a := UploadStarted(file);
    var b := TranslateStarted();
    var f := Failed();
    assert r.events == a + b + f;
    ViewsAppend(a, b);
    ViewsAppend(a + b, f);
    Project2(StatusOf, a[0], a[1]);
    Project2(StatusOf, b[0], b[1]);
    Project2(StatusOf, f[0], f[1]);
    Project2(RequestOf, a[0], a[1]);
    Project2(RequestOf, b[0], b[1]);
    Project2(RequestOf, f[0], f[1]);
    Project2(ClickOf, a[0], a[1]);
    Project2(ClickOf, b[0], b[1]);
    Project2(ClickOf, f[0], f[1]);
    LiveAppend({}, a, b);
    LiveAppend({}, a + b, f);
    LiveQuiet2({}, a[0], a[1]);
    LiveQuiet2({}, b[0], b[1]);
    LiveQuiet2({}, f[0], f[1]);
  }

  /** The translate request is made exactly when the upload succeeded, and then
      only after the upload request. */
  lemma TranslateOnlyAfterUpload(app: App, file: File, upload: Response, translate: Response)
    requires app.status == Idle && file.mime == PdfType
    ensures var rs := Requests(HandleFileChange(app, Some(file), upload, translate).events);
      && (TranslateRequest in rs <==> upload.Ok?)
      && |rs| > 0 && rs[0] == UploadRequest(file)
  {
    if upload.Fail? {
      UploadFailure(app, file, translate);
    } else if translate.Fail? {
      TranslateFailure(app, file, upload);
    } else {
      SuccessPath(app, file, upload, translate);
    }
  }

  // ---------------------------------------------------------------------------
  // Properties of download and reset

  /** Download prefers the translated PDF, named from `fileName` with the
      `document` fallback; otherwise it offers the uploaded file as
      `processed_<fileName>`; with neither it does nothing. No URL stays live. */
  lemma DownloadChoice(app: App)
    ensures var r := HandleDownload(app);
      && LiveFrom({}, r.events) == {}
      && Statuses(r.events) == [] && Requests(r.events) == []
      && (app.translatedBlob.Some? ==>
            && Created(r.events) == [(app.nextUrl, BlobPayload(app.translatedBlob.value))]
            && Clicks(r.events) == [(app.nextUrl, TranslatedName(app.fileName))])
      && (app.translatedBlob.None? && app.uploadedFile.Some? ==>
            && Created(r.events) == [(app.nextUrl, FilePayload(app.uploadedFile.value))]
            && Clicks(r.events) == [(app.nextUrl, "processed_" + app.fileName)])
      && (app.translatedBlob.None? && app.uploadedFile.None? ==> r.events == [] && r.app == app)
  {
    var url := app.nextUrl;
    if app.translatedBlob.Some? {
      HandoffViews(url, BlobPayload(app.translatedBlob.value), TranslatedName(app.fileName), {});
    } else if app.uploadedFile.Some? {
      HandoffViews(url, FilePayload(app.uploadedFile.value), "processed_" + app.fileName, {});
    }
  }

  // ---------------------------------------------------------------------------
  // The page as a whole

  /** What the user can do: choose a file (the server's two answers are part of
      the action), or press one of the two buttons. */
  datatype Action =
    | Choose(selected: Option<File>, upload: Response, translate: Response)
    | ClickDownload
    | ClickReset

  /** One user action. The file input is rendered only while idle and the two
      buttons only when complete; an action on a control that is not rendered does
      nothing. */
  function Step(app: App, action: Action): Outcome {
    match action
    case Choose(selected, upload, translate) =>
      if app.status == Idle then HandleFileChange(app, selected, upload, translate) else Outcome(app, [])
    case ClickDownload =>
      if app.status == Complete then HandleDownload(app) else Outcome(app, [])
    case ClickReset =>
      if app.status == Complete then HandleReset(app) else Outcome(app, [])
  }

  /** A sequence of actions from `app`; the logs are concatenated. */
  function Run(app: App, actions: seq<Action>): Outcome
    decreases |actions|
  {
    if |actions| == 0 then Outcome(app, [])
    else
      var first := Step(app, actions[0]);
      var rest := Run(first.app, actions[1..]);
      Outcome(rest.app, first.events + rest.events)
  }

  /** The state the page can be in between actions: idle with no translated PDF, or
      complete with both the chosen file and its translation; the name shown is the
      chosen file's name, and the chosen file is a PDF. */
  predicate Inv(app: App) {
    && (app.status == Idle || app.status == Complete)
    && (app.status == Idle ==> app.translatedBlob.None?)
    && (app.status == Complete ==> app.translatedBlob.Some? && app.uploadedFile.Some?)
    && (app.uploadedFile.None? ==> app.fileName == "")
    && (app.uploadedFile.Some? ==> app.fileName == app.uploadedFile.value.name && app.uploadedFile.value.mime == PdfType)
  }

  lemma InitialInv()
    ensures Inv(Initial)
  {
  }

  /** Every download an action starts is from an object URL that is still live:
      the anchor is clicked before its URL is revoked. */
  lemma StepClicksLive(app: App, action: Action)
    ensures ClicksLive({}, Step(app, action).events)
  {
    var r := Step(app, action);
    match action
    case Choose(selected, upload, translate) =>
      if app.status == Idle && selected.Some? && selected.value.mime == PdfType {
        var file := selected.value;
        var a := UploadStarted(file);
        if upload.Fail? {
          NoClicksLive({}, r.events);
        } else if translate.Fail? {
          NoClicksLive({}, r.events);
        } else {
          var b := TranslateStarted();
          var c := Handoff(app.nextUrl, BlobPayload(translate.body), TranslatedName(app.fileName));
          var d := [StatusSet(Complete)];
          assert r.events == (a + b) + (c + d);
          NoClicksLive({}, a + b);
          LiveAppend({}, a, b);
          LiveQuiet2({}, a[0], a[1]);
          LiveQuiet2({}, b[0], b[1]);
          HandoffViews(app.nextUrl, BlobPayload(translate.body), TranslatedName(app.fileName), {});
          NoClicksLive({}, d);
          ClicksLiveAppend({}, c, d);
          ClicksLiveAppend({}, a + b, c + d);
        }
      } else {
        assert r.events == [];
      }
    case ClickDownload =>
      if app.status == Complete {
        if app.translatedBlob.Some? {
          HandoffViews(app.nextUrl, BlobPayload(app.translatedBlob.value), TranslatedName(app.fileName), {});
        } else if app.uploadedFile.Some? {
          HandoffViews(app.nextUrl, FilePayload(app.uploadedFile.value), "processed_" + app.fileName, {});
        }
      }
    case ClickReset =>
      NoClicksLive({}, r.events);
  }

  /** Every action keeps the invariant and leaves no object URL live. */
  lemma StepInv(app: App, action: Action)
    requires Inv(app)
    ensures Inv(Step(app, action).app)
    ensures LiveFrom({}, Step(app, action).events) == {}
    ensures ClicksLive({}, Step(app, action).events)
  {
    StepClicksLive(app, action);
    match action
    case Choose(selected, upload, translate) =>
      if app.status == Idle && selected.Some? && selected.value.mime == PdfType {
        var file := selected.value;
        if upload.Fail? {
          UploadFailure(app, file, translate);
        } else if translate.Fail? {
          TranslateFailure(app, file, upload);
        } else {
          SuccessPath(app, file, upload, translate);
        }
      }
    case ClickDownload =>
      DownloadChoice(app);
    case ClickReset =>
      assert [StatusSet(Idle)][1..] == [];
  }

  /** From a state satisfying the invariant, every run keeps it and leaves no object
      URL live. */
  lemma {:induction false} RunInv(app: App, actions: seq<Action>)
    requires Inv(app)
    ensures Inv(Run(app, actions).app)
    ensures LiveFrom({}, Run(app, actions).events) == {}
    ensures ClicksLive({}, Run(app, actions).events)
    decreases |actions|
  {
    if |actions| > 0 {
      var first := Step(app, actions[0]);
      StepInv(app, actions[0]);
      RunInv(first.app, actions[1..]);
      LiveAppend({}, first.events, Run(first.app, actions[1..]).events);
      ClicksLiveAppend({}, first.events, Run(first.app, actions[1..]).events);
    }
  }

  /** Between actions, the download button always hands out the translated PDF:
      whenever it is shown, there is one. */
  lemma DownloadFromCompleteIsTranslated(app: App)
    requires Inv(app) && app.status == Complete
    ensures var r := Step(app, ClickDownload);
      Created(r.events) == [(app.nextUrl, BlobPayload(app.translatedBlob.value))]
      && Clicks(r.events) == [(app.nextUrl, TranslatedName(app.fileName))]
  {
    DownloadChoice(app);
  }
}

=== FILE: geometry.dfy ===
/** Axis-aligned rectangles in PDF user space, as PyMuPDF reports them:
    `(x0, y0, x1, y1)` with y growing downwards. Coordinates are reals. */
module Geometry {

  datatype Rect = Rect(x0: real, y0: real, x1: real, y1: real)

  /** The corners are ordered, so the rectangle is a (possibly degenerate) closed box. */
  predicate WellFormed(r: Rect) {
    r.x0 <= r.x1 && r.y0 <= r.y1
  }

  /** The point `(x, y)` lies in the closed box `r`. */
  predicate Contains(r: Rect, x: real, y: real) {
    r.x0 <= x <= r.x1 && r.y0 <= y <= r.y1
  }

  /** Every point of `inner` lies in `outer`. */
  predicate Encloses(outer: Rect, inner: Rect) {
    outer.x0 <= inner.x0 && inner.x1 <= outer.x1 && outer.y0 <= inner.y0 && inner.y1 <= outer.y1
  }
}

=== FILE: pdf_modifier.dfy ===
/** Planning of the Hindi overlay (pdf_modifier.py).

    `apply_translations_to_pdf` visits the pages in order and, on each page, the
    translated regions in order. A region of that page with a non-blank Hindi text
    gets its padded box filled white, then its stripped text inserted at font sizes
    10, 9, 8, 7, 6 until one fits; when none fits a warning is printed. The model
    replaces the drawing calls by a log of operations and the result code of
    `insert_textbox` by an oracle `fits`. */
module PdfModifier {
  import opened Wrappers
  import opened Text
  import opened Geometry
  import RegionTranslator

  /** The default paddings of `pad_bbox`. */
  const PaddingTop: real := 2.0
  const PaddingBottom: real := 14.0

  /** The font sizes tried: from 10 down to 6. */
  const MaxFontSize: int := 10
  const MinFontSize: int := 6

  /** `pad_bbox`: the box grows upwards by `top` and downwards by `bottom`. */
  function PadBox(b: Rect, top: real, bottom: real): (r: Rect)
    ensures r.x0 == b.x0 && r.x1 == b.x1
    ensures r.y0 == b.y0 - top && r.y1 == b.y1 + bottom
    ensures r.y1 - r.y0 == (b.y1 - b.y0) + top + bottom
    ensures 0.0 <= top && 0.0 <= bottom ==> Encloses(r, b)
    ensures top == 0.0 && bottom == 0.0 ==> r == b
  {
    Rect(b.x0, b.y0 - top, b.x1, b.y1 + bottom)
  }

  /** Padding by the negated amounts undoes a padding: no information about the
      original box is lost. */
  lemma PadBoxInverse(b: Rect, top: real, bottom: real)
    ensures PadBox(PadBox(b, top, bottom), -top, -bottom) == b
  {
  }

  /** With the default paddings the box gains 2 units above and 14 below: it
      encloses the original, keeps its horizontal extent and is 16 units taller. */
  lemma DefaultPadding(b: Rect)
    ensures PadBox(b, PaddingTop, PaddingBottom).y0 == b.y0 - 2.0
    ensures PadBox(b, PaddingTop, PaddingBottom).y1 == b.y1 + 14.0
    ensures Encloses(PadBox(b, PaddingTop, PaddingBottom), b)
    ensures WellFormed(b) ==> WellFormed(PadBox(b, PaddingTop, PaddingBottom))
    ensures PadBox(b, PaddingTop, PaddingBottom).y1 - PadBox(b, PaddingTop, PaddingBottom).y0
      == b.y1 - b.y0 + 16.0
  {
  }

  /** One translated region as `apply_translations_to_pdf` reads it: `page` and
      `rect` are required keys; `region_name` and `hindi_text` are read with
      `get` and may be missing. */
  datatype Placement = Placement(page: int, regionName: Option<string>, rect: Rect, hindiText: Option<string>)

  /** The records `translate_regions` produces carry every key. */
  function FromTranslated(t: RegionTranslator.TranslatedRegion): (r: Placement)
    ensures r.page == t.page && r.rect == t.rect
    ensures r.regionName == Some(t.regionName) && r.hindiText == Some(t.hindiText)
  {
    Placement(t.page, Some(t.regionName), t.rect, Some(t.hindiText))
  }

  /** The drawing calls: the white fill of `draw_rect`, one `insert_textbox` call
      at a font size, and the warning that is printed when no size fits. */
  datatype Op =
    | Fill(page: nat, box: Rect)
    | Attempt(page: nat, box: Rect, text: string, size: int)
    | Warn(page: nat, regionName: Option<string>)

  /** The oracle for `insert_textbox(...) >= 0`: whether `text` fits `box` on the
      page at the font size. */
  type Fits = (nat, Rect, string, int) -> bool

  /** The `insert_textbox` calls from font size `size` down to the smallest size,
      stopping after the first call that fits. */
  function Attempts(page: nat, box: Rect, text: string, size: int, fits: Fits): seq<Op>
    decreases size
  {
    if size < MinFontSize then []
    else [Attempt(page, box, text, size)] + (if fits(page, box, text, size) then [] else Attempts(page, box, text, size - 1, fits))
  }

  /** The reference definition of the fallback: the largest size in
      `[MinFontSize, size]` at which the text fits, if any. */
  function FirstFit(page: nat, box: Rect, text: string, size: int, fits: Fits): Option<int>
    decreases size
  {
    if size < MinFontSize then None
    else if fits(page, box, text, size) then Some(size)
    else FirstFit(page, box, text, size - 1, fits)
  }

  /** `FirstFit` finds a size exactly when some size in range fits, and then it is
      the largest such size. */
  lemma {:induction false} FirstFitSpec(page: nat, box: Rect, text: string, size: int, fits: Fits)
    ensures var r := FirstFit(page, box, text, size, fits);
      && (r.Some? <==> exists s | MinFontSize <= s <= size :: fits(page, box, text, s))
      && (r.Some? ==> MinFontSize <= r.value <= size && fits(page, box, text, r.value))
      && (r.Some? ==> forall s | r.value < s <= size :: !fits(page, box, text, s))
    decreases size
  {
    if size >= MinFontSize && !fits(page, box, text, size) {
      FirstFitSpec(page, box, text, size - 1, fits);
    }
  }

  /** The attempts are the sizes `size`, `size - 1`, ... in turn, all on the given
      page, box and text, never below the smallest size, and every attempt but the
      last fails. */
  lemma {:induction false} AttemptsShape(page: nat, box: Rect, text: string, size: int, fits: Fits)
    ensures var r := Attempts(page, box, text, size, fits);
      && (forall k | 0 <= k < |r| :: r[k] == Attempt(page, box, text, size - k))
      && (forall k | 0 <= k < |r| - 1 :: !fits(page, box, text, r[k].size))
      && |r| <= if size < MinFontSize then 0 else size - MinFontSize + 1
    decreases size
  {
    if size >= MinFontSize && !fits(page, box, text, size) {
      AttemptsShape(page, box, text, size - 1, fits);
      var r := Attempts(page, box, text, size, fits);
      var rest := Attempts(page, box, text, size - 1, fits);
      assert r == [Attempt(page, box, text, size)] + rest;
      assert forall k | 1 <= k < |r| :: r[k] == rest[k - 1];
    }
  }

  /** The attempts stop at the first size that fits: the last attempt is at the
      size `FirstFit` finds, or, when no size fits, at the smallest size. */
  lemma {:induction false} AttemptsStop(page: nat, box: Rect, text: string, size: int, fits: Fits)
    requires MinFontSize <= size
    ensures var r := Attempts(page, box, text, size, fits);
      && |r| >= 1
      && r[|r| - 1].Attempt?
      && FirstFit(page, box, text, size, fits)
           == (if fits(page, box, text, r[|r| - 1].size) then Some(r[|r| - 1].size) else None)
      && (FirstFit(page, box, text, size, fits).None? ==> r[|r| - 1].size == MinFontSize)
    decreases size
  {
    if !fits(page, box, text, size) && size > MinFontSize {
      AttemptsStop(page, box, text, size - 1, fits);
      var r := Attempts(page, box, text, size, fits);
      var rest := Attempts(page, box, text, size - 1, fits);
      assert r == [Attempt(page, box, text, size)] + rest;
      assert r[|r| - 1] == rest[|rest| - 1];
    }
  }

  /** Over the full range 10 down to 6: at most five attempts, at strictly
      descending sizes, and the last one fits exactly when some size fits. */
  lemma FullRangeAttempts(page: nat, box: Rect, text: string, fits: Fits)
    ensures var r := Attempts(page, box, text, MaxFontSize, fits);
      && 1 <= |r| <= 5
      && (forall k | 0 <= k < |r| :: r[k].Attempt? && r[k].size == MaxFontSize - k)
      && (forall k, k' | 0 <= k < k' < |r| :: r[k].size > r[k'].size)
      && (fits(page, box, text, r[|r| - 1].size) <==> FirstFit(page, box, text, MaxFontSize, fits).Some?)
  {
    AttemptsShape(page, box, text, MaxFontSize, fits);
    AttemptsStop(page, box, text, MaxFontSize, fits);
  }

  /** The Hindi text that is written: the stripped `hindi_text`, or "" when it is missing. */
  function StrippedHindi(region: Placement): string {
    Strip(OrElse(region.hindiText, ""))
  }

  /** The region is drawn on page `index`: it belongs to that page and its Hindi
      text is not blank. */
  predicate Applies(index: nat, region: Placement) {
    region.page == index && StrippedHindi(region) != []
  }

  /** A record produced by `translate_regions` is drawn on page `index` exactly
      when it belongs to that page and its Hindi text is not all whitespace; what
      is written is that text stripped. */
  lemma TranslatedApplies(index: nat, t: RegionTranslator.TranslatedRegion)
    ensures Applies(index, FromTranslated(t)) <==> t.page == index && !IsBlank(t.hindiText)
    ensures StrippedHindi(FromTranslated(t)) == Strip(t.hindiText)
  {
  }

  /** Whether some font size from 10 down to 6 fits the region. */
  predicate Inserted(index: nat, region: Placement, fits: Fits) {
    FirstFit(index, PadBox(region.rect, PaddingTop, PaddingBottom), StrippedHindi(region), MaxFontSize, fits).Some?
  }

  /** The operations for one region on page `index`. */
  function RegionOps(index: nat, region: Placement, fits: Fits): seq<Op> {
    if region.page != index then []
    else
      var hindi := StrippedHindi(region);
      if hindi == [] then []
      else
        var box := PadBox(region.rect, PaddingTop, PaddingBottom);
        [Fill(index, box)] + Attempts(index, box, hindi, MaxFontSize, fits)
          + (if Inserted(index, region, fits) then [] else [Warn(index, region.regionName)])
  }

  /** A region produces operations exactly when it applies to the page: regions
      of other pages and regions whose Hindi text is missing or blank are skipped. */
  lemma RegionOpsEmpty(index: nat, region: Placement, fits: Fits)
    ensures RegionOps(index, region, fits) == [] <==> !Applies(index, region)
  {
  }

  /** The shape of a region's log: a fill, then attempts, then warnings, all on one page. */
  lemma LogShape(index: nat, box: Rect, text: string, attempts: seq<Op>, tail: seq<Op>)
    requires 1 <= |attempts|
    requires forall k | 0 <= k < |attempts| ::
      attempts[k].Attempt? && attempts[k].page == index && attempts[k].box == box && attempts[k].text == text
    requires forall k | 0 <= k < |tail| :: tail[k].Warn? && tail[k].page == index
    ensures var r := [Fill(index, box)] + attempts + tail;
      && r[0] == Fill(index, box)
      && r[1..1 + |attempts|] == attempts
      && (forall k | 1 <= k < |r| :: !r[k].Fill?)
      && (forall k | 1 <= k <= |attempts| :: r[k].Attempt? && r[k].text == text && r[k].box == box)
      && (forall k | 0 <= k < |r| :: r[k].page == index)
      && (|tail| == 0 <==> !r[|r| - 1].Warn?)
      && (|tail| > 0 ==> r[|r| - 1] == tail[|tail| - 1])
  {
    var r := [Fill(index, box)] + attempts + tail;
    assert forall k | 1 <= k <= |attempts| :: r[k] == attempts[k - 1];
    assert forall k | 1 + |attempts| <= k < |r| :: r[k] == tail[k - 1 - |attempts|];
  }

  /** For a region that applies: the white fill of the padded box comes first, the
      text-insert attempts of `FullRangeAttempts` follow with the stripped Hindi
      text, and a single warning closes the list exactly when no size fits. Every
      operation is on page `index`. */
  lemma RegionOpsSpec(index: nat, region: Placement, fits: Fits)
    requires Applies(index, region)
    ensures var r := RegionOps(index, region, fits);
      var box := PadBox(region.rect, PaddingTop, PaddingBottom);
      var attempts := Attempts(index, box, StrippedHindi(region), MaxFontSize, fits);
      && |r| >= 2
      && r[0] == Fill(index, box)
      && r[1..1 + |attempts|] == attempts
      && (forall k | 1 <= k < |r| :: !r[k].Fill?)
      && (forall k | 1 <= k <= |attempts| :: r[k].Attempt? && r[k].text == StrippedHindi(region) && r[k].box == box)
      && (Inserted(index, region, fits) <==> |r| == 1 + |attempts|)
      && (!Inserted(index, region, fits) <==> r[|r| - 1] == Warn(index, region.regionName))
      && (forall k | 0 <= k < |r| :: r[k].page == index)
  {
    var box := PadBox(region.rect, PaddingTop, PaddingBottom);
    var text := StrippedHindi(region);
    var attempts := Attempts(index, box, text, MaxFontSize, fits);
    var tail: seq<Op> := if Inserted(index, region, fits) then [] else [Warn(index, region.regionName)];
    FullRangeAttempts(index, box, text, fits);
    AttemptsShape(index, box, text, MaxFontSize, fits);
    assert RegionOps(index, region, fits) == [Fill(index, box)] + attempts + tail;
    LogShape(index, box, text, attempts, tail);
  }

  /** The operations of `regions` in order, each region planned by `plan`. */
  function Concat(plan: Placement -> seq<Op>, regions: seq<Placement>): seq<Op> {
    if |regions| == 0 then []
    else Concat(plan, regions[..|regions| - 1]) + plan(regions[|regions| - 1])
  }

  function RegionPlan(index: nat, fits: Fits): Placement -> seq<Op> {
    x => RegionOps(index, x, fits)
  }

  /** The operations for page `index`: the regions in order. */
  function PageOps(index: nat, regions: seq<Placement>, fits: Fits): seq<Op> {
    Concat(RegionPlan(index, fits), regions)
  }

  /** The operations for a document of `pageCount` pages: the pages in order. */
  function ApplyTranslations(pageCount: nat, regions: seq<Placement>, fits: Fits): seq<Op> {
    if pageCount == 0 then []
    else ApplyTranslations(pageCount - 1, regions, fits) + PageOps(pageCount - 1, regions, fits)
  }

  // ---------------------------------------------------------------------------
  // Properties of the whole plan

  /** The boxes of the white fills in a log, in order. */
  function FillBoxes(ops: seq<Op>): seq<Rect> {
    if |ops| == 0 then []
    else FillBoxes(ops[..|ops| - 1]) + (if ops[|ops| - 1].Fill? then [ops[|ops| - 1].box] else [])
  }

  /** The regions named in the warnings of a log, in order. */
  function Warnings(ops: seq<Op>): seq<Option<string>> {
    if |ops| == 0 then []
    else Warnings(ops[..|ops| - 1]) + (if ops[|ops| - 1].Warn? then [ops[|ops| - 1].regionName] else [])
  }

  /** The padded boxes of the regions that apply to page `index`, in order. */
  function AppliedBoxes(index: nat, regions: seq<Placement>): seq<Rect> {
    if |regions| == 0 then []
    else
      var x := regions[|regions| - 1];
      AppliedBoxes(index, regions[..|regions| - 1])
        + (if Applies(index, x) then [PadBox(x.rect, PaddingTop, PaddingBottom)] else [])
  }

  /** The names of the regions that apply to page `index` and fit at no size, in order. */
  function Unfitted(index: nat, regions: seq<Placement>, fits: Fits): seq<Option<string>> {
    if |regions| == 0 then []
    else
      var x := regions[|regions| - 1];
      Unfitted(index, regions[..|regions| - 1], fits)
        + (if Applies(index, x) && !Inserted(index, x, fits) then [x.regionName] else [])
  }

  lemma {:induction false} FillBoxesAppend(a: seq<Op>, b: seq<Op>)
    ensures FillBoxes(a + b) == FillBoxes(a) + FillBoxes(b)
    ensures Warnings(a + b) == Warnings(a) + Warnings(b)
    decreases |b|
  {
    if |b| == 0 {
      assert a + b == a;
    } else {
      var n := |b| - 1;
      FillBoxesAppend(a, b[..n]);
      assert (a + b)[..|a + b| - 1] == a + b[..n];
    }
  }

  /** A run of attempts holds no fill and no warning. */
  lemma {:induction false} AttemptsAreQuiet(page: nat, box: Rect, text: string, size: int, fits: Fits)
    ensures FillBoxes(Attempts(page, box, text, size, fits)) == []
    ensures Warnings(Attempts(page, box, text, size, fits)) == []
    decreases size
  {
    if size >= MinFontSize {
      var head := [Attempt(page, box, text, size)];
      var rest := if fits(page, box, text, size) then [] else Attempts(page, box, text, size - 1, fits);
      AttemptsAreQuiet(page, box, text, size - 1, fits);
      FillBoxesAppend(head, rest);
    }
  }

  /** One region adds at most its own fill box and its own warning. */
  lemma RegionOpsSummary(index: nat, region: Placement, fits: Fits)
    ensures FillBoxes(RegionOps(index, region, fits))
      == if Applies(index, region) then [PadBox(region.rect, PaddingTop, PaddingBottom)] else []
    ensures Warnings(RegionOps(index, region, fits))
      == if Applies(index, region) && !Inserted(index, region, fits) then [region.regionName] else []
  {
    if Applies(index, region) {
      var box := PadBox(region.rect, PaddingTop, PaddingBottom);
      var attempts := Attempts(index, box, StrippedHindi(region), MaxFontSize, fits);
      var tail: seq<Op> := if Inserted(index, region, fits) then [] else [Warn(index, region.regionName)];
      AttemptsAreQuiet(index, box, StrippedHindi(region), MaxFontSize, fits);
      FillBoxesAppend([Fill(index, box)], attempts);
      FillBoxesAppend([Fill(index, box)] + attempts, tail);
    }
  }

  /** On each page, the white fills are exactly the padded boxes of the regions of
      that page with non-blank Hindi text, in region order, and the warnings are
      exactly the names of those regions whose text fits at no size: one warning
      per such region, and the regions after it are still processed. */
  lemma {:induction false} PageOpsSpec(index: nat, regions: seq<Placement>, fits: Fits)
    ensures FillBoxes(PageOps(index, regions, fits)) == AppliedBoxes(index, regions)
    ensures Warnings(PageOps(index, regions, fits)) == Unfitted(index, regions, fits)
  {
    if |regions| > 0 {
      var n := |regions| - 1;
      PageOpsSpec(index, regions[..n], fits);
      PageOpsLast(index, regions, fits);
      RegionOpsSummary(index, regions[n], fits);
      FillBoxesAppend(PageOps(index, regions[..n], fits), RegionOps(index, regions[n], fits));
    }
  }

  /** The regions are processed independently and in order: the operations for
      `a + b` are those for `a` followed by those for `b`, so a region whose text
      fits at no size does not stop the regions after it. */
  lemma {:induction false} ConcatAppend(plan: Placement -> seq<Op>, a: seq<Placement>, b: seq<Placement>)
    ensures Concat(plan, a + b) == Concat(plan, a) + Concat(plan, b)
    decreases |b|
  {
    if |b| == 0 {
      assert a + b == a;
    } else {
      var n := |b| - 1;
      ConcatAppend(plan, a, b[..n]);
      assert (a + b)[..|a + b| - 1] == a + b[..n];
    }
  }

  lemma PageOpsAppend(index: nat, a: seq<Placement>, b: seq<Placement>, fits: Fits)
    ensures PageOps(index, a + b, fits) == PageOps(index, a, fits) + PageOps(index, b, fits)
  {
    ConcatAppend(RegionPlan(index, fits), a, b);
  }

  /** A region whose plan is empty can be dropped from a concatenation. */
  lemma ConcatSkip(plan: Placement -> seq<Op>, before: seq<Placement>, x: Placement, after: seq<Placement>)
    requires plan(x) == []
    ensures Concat(plan, before + [x] + after) == Concat(plan, before + after)
  {
    ConcatAppend(plan, before + [x], after);
    ConcatAppend(plan, before, [x]);
    ConcatAppend(plan, before, after);
    assert [x][..0] == [];
  }

  /** A region that does not apply to the page can be dropped without changing
      what is drawn on it. */
  lemma InapplicableRegionIgnored(index: nat, before: seq<Placement>, x: Placement, after: seq<Placement>, fits: Fits)
    requires !Applies(index, x)
    ensures PageOps(index, before + [x] + after, fits) == PageOps(index, before + after, fits)
  {
    RegionOpsEmpty(index, x, fits);
    ConcatSkip(RegionPlan(index, fits), before, x, after);
  }

  /** The last region's operations come last. */
  lemma PageOpsLast(index: nat, regions: seq<Placement>, fits: Fits)
    requires |regions| > 0
    ensures PageOps(index, regions, fits)
      == PageOps(index, regions[..|regions| - 1], fits) + RegionOps(index, regions[|regions| - 1], fits)
  {
  }

  /** Every operation of a page lies on that page. */
  lemma {:induction false} PageOpsOnPage(index: nat, regions: seq<Placement>, fits: Fits)
    ensures forall k | 0 <= k < |PageOps(index, regions, fits)| :: PageOps(index, regions, fits)[k].page == index
  {
    if |regions| > 0 {
      var n := |regions| - 1;
      PageOpsOnPage(index, regions[..n], fits);
      PageOpsLast(index, regions, fits);
      var x := regions[n];
      if Applies(index, x) {
        RegionOpsSpec(index, x, fits);
      }
    }
  }

  /** Only pages of the document are touched. */
  lemma {:induction false} ApplyTranslationsOnPages(pageCount: nat, regions: seq<Placement>, fits: Fits)
    ensures forall k | 0 <= k < |ApplyTranslations(pageCount, regions, fits)| ::
      ApplyTranslations(pageCount, regions, fits)[k].page < pageCount
  {
    if pageCount > 0 {
      var n := pageCount - 1;
      ApplyTranslationsOnPages(n, regions, fits);
      PageOpsOnPage(n, regions, fits);
      var front := ApplyTranslations(n, regions, fits);
      var r := ApplyTranslations(pageCount, regions, fits);
      assert r == front + PageOps(n, regions, fits);
    }
  }

  /** The operations of a log are grouped by page in page order. */
  predicate PageSorted(ops: seq<Op>) {
    forall k, k' | 0 <= k < k' < |ops| :: ops[k].page <= ops[k'].page
  }

  /** Appending the operations of page `n` to a sorted log of earlier pages keeps it sorted. */
  lemma PageSortedAppend(front: seq<Op>, last: seq<Op>, n: nat)
    requires PageSorted(front)
    requires forall k | 0 <= k < |front| :: front[k].page < n
    requires forall k | 0 <= k < |last| :: last[k].page == n
    ensures PageSorted(front + last)
  {
    var r := front + last;
    forall k, k' | 0 <= k < k' < |r|
      ensures r[k].page <= r[k'].page
    {
      if k' < |front| {
        assert r[k] == front[k] && r[k'] == front[k'];
      } else if k < |front| {
        assert r[k] == front[k] && r[k'] == last[k' - |front|];
      } else {
        assert r[k] == last[k - |front|] && r[k'] == last[k' - |front|];
      }
    }
  }

  /** Across the document, operations are grouped by page in page order. */
  lemma {:induction false} ApplyTranslationsPageOrder(pageCount: nat, regions: seq<Placement>, fits: Fits)
    ensures PageSorted(ApplyTranslations(pageCount, regions, fits))
  {
    if pageCount > 0 {
      var n := pageCount - 1;
      ApplyTranslationsPageOrder(n, regions, fits);
      ApplyTranslationsOnPages(n, regions, fits);
      PageOpsOnPage(n, regions, fits);
      PageSortedAppend(ApplyTranslations(n, regions, fits), PageOps(n, regions, fits), n);
    }
  }

  /** The operations of a log that are on page `p`, in order. */
  function OnPage(ops: seq<Op>, p: int): seq<Op> {
    if |ops| == 0 then []
    else OnPage(ops[..|ops| - 1], p) + (if ops[|ops| - 1].page == p then [ops[|ops| - 1]] else [])
  }

  lemma {:induction false} OnPageAppend(a: seq<Op>, b: seq<Op>, p: int)
    ensures OnPage(a + b, p) == OnPage(a, p) + OnPage(b, p)
    decreases |b|
  {
    if |b| == 0 {
      assert a + b == a;
    } else {
      var n := |b| - 1;
      OnPageAppend(a, b[..n], p);
      assert (a + b)[..|a + b| - 1] == a + b[..n];
    }
  }

  /** A log whose operations are all on page `p` is its own page-`p` part. */
  lemma {:induction false} OnPageAll(ops: seq<Op>, p: int)
    requires forall k | 0 <= k < |ops| :: ops[k].page == p
    ensures OnPage(ops, p) == ops
  {
    if |ops| > 0 {
      OnPageAll(ops[..|ops| - 1], p);
    }
  }

  /** A log with no operation on page `p` has an empty page-`p` part. */
  lemma {:induction false} OnPageNone(ops: seq<Op>, p: int)
    requires forall k | 0 <= k < |ops| :: ops[k].page != p
    ensures OnPage(ops, p) == []
  {
    if |ops| > 0 {
      OnPageNone(ops[..|ops| - 1], p);
    }
  }

  /** Pages outside the document get nothing. */
  lemma OffDocumentPagesUntouched(pageCount: nat, regions: seq<Placement>, fits: Fits, p: int)
    requires p < 0 || pageCount <= p
    ensures OnPage(ApplyTranslations(pageCount, regions, fits), p) == []
  {
    ApplyTranslationsOnPages(pageCount, regions, fits);
    OnPageNone(ApplyTranslations(pageCount, regions, fits), p);
  }

  /** Adding page `n` to the plan of pages before it leaves their parts alone
      and makes page `n`'s part its own plan. */
  lemma PerPageStep(front: seq<Op>, last: seq<Op>, n: nat, p: nat)
    requires p <= n
    requires forall k | 0 <= k < |front| :: front[k].page < n
    requires forall k | 0 <= k < |last| :: last[k].page == n
    ensures p < n ==> OnPage(front + last, p) == OnPage(front, p)
    ensures p == n ==> OnPage(front + last, p) == last
  {
    OnPageAppend(front, last, p);
    if p < n {
      OnPageNone(last, p);
    } else {
      OnPageNone(front, n);
      OnPageAll(last, n);
    }
  }

  /** What the document plan draws on page `p` is exactly the plan of that page:
      the regions of page `p`, in order, and nothing else. */
  lemma {:induction false} ApplyTranslationsPerPage(pageCount: nat, regions: seq<Placement>, fits: Fits)
    ensures forall p: nat | p < pageCount ::
      OnPage(ApplyTranslations(pageCount, regions, fits), p) == PageOps(p, regions, fits)
  {
    if pageCount > 0 {
      var n := pageCount - 1;
      var front := ApplyTranslations(n, regions, fits);
      var last := PageOps(n, regions, fits);
      assert ApplyTranslations(pageCount, regions, fits) == front + last;
      ApplyTranslationsPerPage(n, regions, fits);
      ApplyTranslationsOnPages(n, regions, fits);
      PageOpsOnPage(n, regions, fits);
      forall p: nat | p < pageCount
        ensures OnPage(front + last, p) == PageOps(p, regions, fits)
      {
        PerPageStep(front, last, n, p);
      }
    }
  }
}

=== FILE: pdf_text_extractor.dfy ===
/** Block-level text extraction (pdf_text_extractor.py).

    Each page is the list of tuples of `page.get_text("blocks")`. A block is kept
    when its stripped text is not empty; it is recorded with its page index, its
    first four coordinates and its stripped text, pages in order and blocks in
    order within a page. */
module PdfTextExtractor {
  import opened Text
  import opened Geometry

  /** One tuple of `page.get_text("blocks")`: the box and the text. The block
      number and block type that follow them are unpacked into `*_` and unused. */
  datatype RawBlock = RawBlock(x0: real, y0: real, x1: real, y1: real, text: string)

  /** One output record: `page`, `bbox`, `text`. */
  datatype TextBlock = TextBlock(page: nat, bbox: Rect, text: string)

  /** The block has some non-whitespace text. */
  predicate Kept(b: RawBlock) {
    Strip(b.text) != []
  }

  function Record(page: nat, b: RawBlock): TextBlock {
    TextBlock(page, Rect(b.x0, b.y0, b.x1, b.y1), Strip(b.text))
  }

  /** The records of one page, in block order. */
  function PageBlocks(index: nat, blocks: seq<RawBlock>): (r: seq<TextBlock>)
    ensures |r| <= |blocks|
    ensures forall e | e in r :: e.page == index && e.text != [] && IsStripped(e.text)
  {
    if |blocks| == 0 then []
    else
      var b := blocks[|blocks| - 1];
      PageBlocks(index, blocks[..|blocks| - 1]) + (if Kept(b) then [Record(index, b)] else [])
  }

  /** `extract_text_blocks` over the block lists of the pages of a document. */
  function ExtractTextBlocks(pages: seq<seq<RawBlock>>): (r: seq<TextBlock>)
    ensures forall e | e in r :: e.page < |pages| && e.text != [] && IsStripped(e.text)
  {
    if |pages| == 0 then []
    else
      var n := |pages| - 1;
      ExtractTextBlocks(pages[..n]) + PageBlocks(n, pages[n])
  }

  // ---------------------------------------------------------------------------
  // Where each record comes from

  /** The `(page, block)` positions of the kept blocks of one page, in block order. */
  function PageOrigins(index: nat, blocks: seq<RawBlock>): seq<(nat, nat)> {
    if |blocks| == 0 then []
    else
      var n := |blocks| - 1;
      PageOrigins(index, blocks[..n]) + (if Kept(blocks[n]) then [(index, n)] else [])
  }

  /** The `(page, block)` positions of all kept blocks, page by page. */
  function Origins(pages: seq<seq<RawBlock>>): seq<(nat, nat)> {
    if |pages| == 0 then []
    else
      var n := |pages| - 1;
      Origins(pages[..n]) + PageOrigins(n, pages[n])
  }

  /** Position `a` comes before position `b`: an earlier page, or the same page and
      an earlier block. */
  predicate Before(a: (nat, nat), b: (nat, nat)) {
    a.0 < b.0 || (a.0 == b.0 && a.1 < b.1)
  }

  /** `o` lists, in strictly increasing order, valid positions of kept blocks of
      `pages`, and `r[j]` is the record of the block at `o[j]`. */
  predicate DescribedBy(r: seq<TextBlock>, o: seq<(nat, nat)>, pages: seq<seq<RawBlock>>) {
    && |o| == |r|
    && (forall j | 0 <= j < |o| ::
          && o[j].0 < |pages| && o[j].1 < |pages[o[j].0]|
          && Kept(pages[o[j].0][o[j].1])
          && r[j] == Record(o[j].0, pages[o[j].0][o[j].1]))
    && (forall j, j' | 0 <= j < j' < |o| :: Before(o[j], o[j']))
  }

  lemma {:induction false} PageOriginsLength(index: nat, blocks: seq<RawBlock>)
    ensures |PageOrigins(index, blocks)| == |PageBlocks(index, blocks)|
  {
    if |blocks| > 0 {
      PageOriginsLength(index, blocks[..|blocks| - 1]);
    }
  }

  lemma {:induction false} PageOriginsSound(index: nat, blocks: seq<RawBlock>)
    ensures forall j | 0 <= j < |PageOrigins(index, blocks)| ::
      && PageOrigins(index, blocks)[j].0 == index
      && PageOrigins(index, blocks)[j].1 < |blocks|
      && Kept(blocks[PageOrigins(index, blocks)[j].1])
      && j < |PageBlocks(index, blocks)|
      && PageBlocks(index, blocks)[j] == Record(index, blocks[PageOrigins(index, blocks)[j].1])
  {
    PageOriginsLength(index, blocks);
    if |blocks| > 0 {
      var n := |blocks| - 1;
      var front := blocks[..n];
      PageOriginsSound(index, front);
      PageOriginsLength(index, front);
      var o := PageOrigins(index, blocks);
      var r := PageBlocks(index, blocks);
      var fo := PageOrigins(index, front);
      var fr := PageBlocks(index, front);
      forall j | 0 <= j < |o|
        ensures && o[j].0 == index && o[j].1 < |blocks| && Kept(blocks[o[j].1])
                && j < |r| && r[j] == Record(index, blocks[o[j].1])
      {
        if j < |fo| {
          assert o[j] == fo[j] && r[j] == fr[j];
          assert front[fo[j].1] == blocks[fo[j].1];
        } else {
          assert o[j] == (index, n) && r[j] == Record(index, blocks[n]);
        }
      }
    }
  }

  lemma {:induction false} PageOriginsOrdered(index: nat, blocks: seq<RawBlock>)
    ensures forall j | 0 <= j < |PageOrigins(index, blocks)| :: PageOrigins(index, blocks)[j].1 < |blocks|
    ensures forall j, j' | 0 <= j < j' < |PageOrigins(index, blocks)| ::
      PageOrigins(index, blocks)[j].1 < PageOrigins(index, blocks)[j'].1
  {
    if |blocks| > 0 {
      var n := |blocks| - 1;
      PageOriginsOrdered(index, blocks[..n]);
      var o := PageOrigins(index, blocks);
      var fo := PageOrigins(index, blocks[..n]);
      assert o == fo + (if Kept(blocks[n]) then [(index, n)] else []);
      assert forall j | 0 <= j < |fo| :: o[j] == fo[j] && fo[j].1 < n;
      assert forall j | |fo| <= j < |o| :: o[j] == (index, n);
    }
  }

  lemma {:induction false} PageOriginsOnPage(index: nat, blocks: seq<RawBlock>)
    ensures forall j | 0 <= j < |PageOrigins(index, blocks)| :: PageOrigins(index, blocks)[j].0 == index
  {
    if |blocks| > 0 {
      PageOriginsOnPage(index, blocks[..|blocks| - 1]);
    }
  }

  lemma {:induction false} PageOriginsComplete(index: nat, blocks: seq<RawBlock>)
    ensures forall i | 0 <= i < |blocks| && Kept(blocks[i]) :: (index, i) in PageOrigins(index, blocks)
  {
    if |blocks| > 0 {
      var n := |blocks| - 1;
      var front := blocks[..n];
      PageOriginsComplete(index, front);
      var o := PageOrigins(index, blocks);
      var fo := PageOrigins(index, front);
      forall i | 0 <= i < |blocks| && Kept(blocks[i])
        ensures (index, i) in o
      {
        if i < n {
          assert front[i] == blocks[i];
          assert (index, i) in fo;
        } else {
          assert o[|o| - 1] == (index, n);
        }
      }
    }
  }

  lemma {:induction false} OriginsSound(pages: seq<seq<RawBlock>>)
    ensures |Origins(pages)| == |ExtractTextBlocks(pages)|
    ensures forall j | 0 <= j < |Origins(pages)| ::
      && Origins(pages)[j].0 < |pages| && Origins(pages)[j].1 < |pages[Origins(pages)[j].0]|
      && Kept(pages[Origins(pages)[j].0][Origins(pages)[j].1])
      && ExtractTextBlocks(pages)[j] == Record(Origins(pages)[j].0, pages[Origins(pages)[j].0][Origins(pages)[j].1])
  {
    if |pages| > 0 {
      var n := |pages| - 1;
      var front := pages[..n];
      OriginsSound(front);
      PageOriginsLength(n, pages[n]);
      PageOriginsSound(n, pages[n]);
      var o := Origins(pages);
      var r := ExtractTextBlocks(pages);
      var fo := Origins(front);
      var fr := ExtractTextBlocks(front);
      var lo := PageOrigins(n, pages[n]);
      var lr := PageBlocks(n, pages[n]);
      assert o == fo + lo && r == fr + lr;
      forall j | 0 <= j < |o|
        ensures && o[j].0 < |pages| && o[j].1 < |pages[o[j].0]|
                && Kept(pages[o[j].0][o[j].1])
                && r[j] == Record(o[j].0, pages[o[j].0][o[j].1])
      {
        if j < |fo| {
          assert o[j] == fo[j] && r[j] == fr[j];
          assert front[fo[j].0] == pages[fo[j].0];
        } else {
          var k := j - |fo|;
          assert o[j] == lo[k] && r[j] == lr[k];
          assert lo[k].0 == n;
        }
      }
    }
  }

  lemma {:induction false} OriginsOrdered(pages: seq<seq<RawBlock>>)
    ensures forall j | 0 <= j < |Origins(pages)| :: Origins(pages)[j].0 < |pages|
    ensures forall j, j' | 0 <= j < j' < |Origins(pages)| :: Before(Origins(pages)[j], Origins(pages)[j'])
  {
    if |pages| > 0 {
      var n := |pages| - 1;
      var front := pages[..n];
      OriginsOrdered(front);
      PageOriginsOnPage(n, pages[n]);
      PageOriginsOrdered(n, pages[n]);
      var o := Origins(pages);
      var fo := Origins(front);
      var lo := PageOrigins(n, pages[n]);
      assert o == fo + lo;
      assert forall j | 0 <= j < |fo| :: o[j] == fo[j] && fo[j].0 < n;
      assert forall k | 0 <= k < |lo| :: o[|fo| + k] == lo[k] && lo[k].0 == n;
      forall j, j' | 0 <= j < j' < |o|
        ensures Before(o[j], o[j'])
      {
        if j' < |fo| {
          assert o[j] == fo[j] && o[j'] == fo[j'];
        } else if j < |fo| {
          assert o[j'] == lo[j' - |fo|];
        } else {
          assert o[j] == lo[j - |fo|] && o[j'] == lo[j' - |fo|];
        }
      }
    }
  }

  lemma {:induction false} OriginsComplete(pages: seq<seq<RawBlock>>)
    ensures forall p, i | 0 <= p < |pages| && 0 <= i < |pages[p]| && Kept(pages[p][i]) :: (p, i) in Origins(pages)
  {
    if |pages| > 0 {
      var n := |pages| - 1;
      var front := pages[..n];
      OriginsComplete(front);
      PageOriginsComplete(n, pages[n]);
      var o := Origins(pages);
      assert o == Origins(front) + PageOrigins(n, pages[n]);
      forall p, i | 0 <= p < |pages| && 0 <= i < |pages[p]| && Kept(pages[p][i])
        ensures (p, i) in o
      {
        if p < n {
          assert front[p] == pages[p];
          assert (p, i) in Origins(front);
        } else {
          assert (p, i) in PageOrigins(n, pages[n]);
        }
      }
    }
  }

  /** Every record comes from a kept block, every kept block gives a record, and
      the records follow page order and then block order: the output is exactly
      the kept blocks in document order. */
  lemma OriginsSpec(pages: seq<seq<RawBlock>>)
    ensures DescribedBy(ExtractTextBlocks(pages), Origins(pages), pages)
    ensures forall p, i | 0 <= p < |pages| && 0 <= i < |pages[p]| && Kept(pages[p][i]) :: (p, i) in Origins(pages)
  {
    OriginsSound(pages);
    OriginsOrdered(pages);
    OriginsComplete(pages);
  }
}

=== FILE: preview_page.dfy ===
/** The preview page of the client (frontend/app/preview/page.tsx).

    On mount the page reads the translated PDF, as a data URL, and its file name
    from the browser's session store. Without a PDF it sends the browser back to
    "/"; otherwise it shows the PDF and offers it for download under the stored
    name or a default one. The session store is a map from keys to strings. */
module PreviewPage {
  import opened Wrappers

  const DataKey := "translated_pdf_data"
  const NameKey := "translated_pdf_name"
  const DefaultName := "translated_document.pdf"

  /** The page state: the data URL (`null` until loaded) and the download name. */
  datatype Preview = Preview(dataUrl: Option<string>, fileName: string)

  /** The state on first render. */
  const Initial := Preview(None, DefaultName)

  /** One access of the session store. */
  datatype StoreAccess = GetItem(key: string) | SetItem(key: string, value: string) | RemoveItem(key: string)

  /** What the router is asked to do. */
  datatype Navigation = Stay | Replace(path: string)

  /** The page after the mount effect, the store accesses made, and the navigation. */
  datatype Mounted = Mounted(page: Preview, accesses: seq<StoreAccess>, nav: Navigation)

  /** `sessionStorage.getItem(key)`: `null` for a missing key. */
  function Stored(store: map<string, string>, key: string): (r: Option<string>)
    ensures r.Some? <==> key in store
    ensures r.Some? ==> r.value == store[key]
  {
    if key in store then Some(store[key]) else None
  }

  /** JavaScript truthiness of a `string | null`: present and not empty. */
  predicate Truthy(v: Option<string>) {
    v.Some? && v.value != ""
  }

  /** The mount effect: both keys are read; without a PDF the router replaces the
      page by "/" and the state is left alone; otherwise the PDF is shown and a
      non-empty stored name replaces the download name. */
  function Mount(page: Preview, store: map<string, string>): (r: Mounted)
    ensures forall k | 0 <= k < |r.accesses| :: r.accesses[k].GetItem?
    ensures !Truthy(Stored(store, DataKey)) <==> r.nav == Replace("/")
    ensures !Truthy(Stored(store, DataKey)) ==> r.page == page
    ensures Truthy(Stored(store, DataKey)) ==> r.nav == Stay && r.page.dataUrl == Some(store[DataKey])
  {
    var data := Stored(store, DataKey);
    var name := Stored(store, NameKey);
    var accessed := [GetItem(DataKey), GetItem(NameKey)];
    if !Truthy(data) then Mounted(page, accessed, Replace("/"))
    else
      var named := if Truthy(name) then name.value else page.fileName;
      Mounted(Preview(data, named), accessed, Stay)
  }

  /** A download started by the page: the anchor's `href` and `download`. */
  datatype Click = Click(href: string, download: string)

  /** `handleDownload`: nothing without a data URL; otherwise one click on it under
      the page's file name. */
  function Download(page: Preview): (r: seq<Click>)
    ensures !Truthy(page.dataUrl) <==> r == []
    ensures Truthy(page.dataUrl) ==> r == [Click(page.dataUrl.value, page.fileName)]
  {
    if !Truthy(page.dataUrl) then [] else [Click(page.dataUrl.value, page.fileName)]
  }

  /** Mounting never writes to nor clears the store, so the page can be loaded again
      with the same result. */
  lemma MountIsReadOnly(page: Preview, store: map<string, string>)
    ensures forall a | a in Mount(page, store).accesses :: !a.SetItem? && !a.RemoveItem?
  {
  }

  /** The name a mount settles on: the stored name when it is not empty, else the
      default one. */
  lemma MountName(store: map<string, string>)
    requires Truthy(Stored(store, DataKey))
    ensures Mount(Initial, store).page.fileName
      == if NameKey in store && store[NameKey] != "" then store[NameKey] else DefaultName
  {
  }

  /** Handing a PDF over through the store: whatever the store held before, after
      storing a non-empty data URL `d` and a name `n` the page shows `d` and
      downloads it under `n`, or under the default name when `n` is empty. */
  lemma Handover(store: map<string, string>, d: string, n: string)
    requires d != ""
    ensures var m := Mount(Initial, store[DataKey := d][NameKey := n]);
      && m.nav == Stay
      && m.page == Preview(Some(d), if n == "" then DefaultName else n)
      && Download(m.page) == [Click(d, if n == "" then DefaultName else n)]
  {
    var s := store[DataKey := d][NameKey := n];
    assert DataKey != NameKey by {
      assert DataKey[15] != NameKey[15];
    }
    assert s[DataKey] == d;
  }

  /** Mounting twice from the same store, as a second run of the effect does,
      gives the state of mounting once. */
  lemma MountIdempotent(page: Preview, store: map<string, string>)
    ensures Mount(Mount(page, store).page, store).page == Mount(page, store).page
  {
  }

  /** Without a stored PDF the page is sent back and its download does nothing. */
  lemma NoDataNoDownload(store: map<string, string>)
    requires !Truthy(Stored(store, DataKey))
    ensures Mount(Initial, store).nav == Replace("/")
    ensures Download(Mount(Initial, store).page) == []
  {
  }
}

=== FILE: region_text_extractor.dfy ===
/** Text collection by configured regions (region_text_extractor.py).

    Each page is the nested `page.get_text("dict")` structure: blocks of lines of
    spans, each span with a bounding box and a text. For every page and every
    configured region, in that order, the stripped non-blank texts of the spans of
    text blocks that meet the region are joined with single spaces. */
module RegionTextExtractor {
  import opened Text
  import opened Geometry

  datatype Span = Span(bbox: Rect, text: string)
  datatype Line = Line(spans: seq<Span>)

  /** A block of the page dictionary; `kind` is its `"type"` entry. */
  datatype Block = Block(kind: int, lines: seq<Line>)

  datatype PageDict = PageDict(blocks: seq<Block>)

  /** A configured region: its `"name"` and its `"rect"`. */
  datatype Region = Region(name: string, rect: Rect)

  /** One result record: `page`, `region_name`, `rect` and `text`. */
  datatype RegionText = RegionText(page: nat, regionName: string, rect: Rect, text: string)

  /** The `"type"` PyMuPDF gives to text blocks; all other blocks are skipped. */
  const TextBlockType: int := 0

  /** The source's overlap test: the span is neither strictly left of, right of,
      above nor below the region. */
  predicate Intersects(span: Rect, region: Rect) {
    !(span.x1 < region.x0 || span.x0 > region.x1 || span.y1 < region.y0 || span.y0 > region.y1)
  }

  /** For well-formed boxes the test is closed-box overlap: the two boxes share a
      point, so boxes that only touch along an edge or at a corner intersect. */
  lemma IntersectsIffCommonPoint(span: Rect, region: Rect)
    requires WellFormed(span) && WellFormed(region)
    ensures Intersects(span, region) <==> exists x, y :: Contains(span, x, y) && Contains(region, x, y)
  {
    if Intersects(span, region) {
      var x := if span.x0 < region.x0 then region.x0 else span.x0;
      var y := if span.y0 < region.y0 then region.y0 else span.y0;
      assert Contains(span, x, y) && Contains(region, x, y);
    }
  }

  /** The span adds its text to the region: the stripped text is not empty and the
      span's box meets the region. */
  predicate Contributes(s: Span, rect: Rect) {
    Strip(s.text) != [] && Intersects(s.bbox, rect)
  }

  /** Every collected text is non-empty and stripped. */
  predicate CleanTexts(texts: seq<string>) {
    forall k | 0 <= k < |texts| :: texts[k] != [] && IsStripped(texts[k])
  }

  /** What one span adds: its stripped text when it contributes, else nothing. */
  function Contribution(s: Span, rect: Rect): seq<string> {
    if Contributes(s, rect) then [Strip(s.text)] else []
  }

  /** The texts one line's spans add, in span order. */
  function SpanTexts(spans: seq<Span>, rect: Rect): (r: seq<string>)
    ensures CleanTexts(r)
    ensures |r| <= |spans|
  {
    if |spans| == 0 then []
    else Contribution(spans[0], rect) + SpanTexts(spans[1..], rect)
  }

  /** The texts a block's lines add, in line order. */
  function LineTexts(lines: seq<Line>, rect: Rect): (r: seq<string>)
    ensures CleanTexts(r)
  {
    if |lines| == 0 then []
    else SpanTexts(lines[0].spans, rect) + LineTexts(lines[1..], rect)
  }

  /** The texts a page's blocks add, in block order; non-text blocks add nothing. */
  function BlockTexts(blocks: seq<Block>, rect: Rect): (r: seq<string>)
    ensures CleanTexts(r)
  {
    if |blocks| == 0 then []
    else (if blocks[0].kind != TextBlockType then [] else LineTexts(blocks[0].lines, rect)) + BlockTexts(blocks[1..], rect)
  }

  /** All spans of the text blocks of a page, in block, line and span order. */
  function TextSpans(blocks: seq<Block>): seq<Span> {
    if |blocks| == 0 then []
    else (if blocks[0].kind != TextBlockType then [] else LineSpans(blocks[0].lines)) + TextSpans(blocks[1..])
  }

  function LineSpans(lines: seq<Line>): seq<Span> {
    if |lines| == 0 then [] else lines[0].spans + LineSpans(lines[1..])
  }

  /** The record for one page and one region. */
  function Entry(index: nat, page: PageDict, region: Region): (r: RegionText)
    ensures r.page == index && r.regionName == region.name && r.rect == region.rect
    ensures IsStripped(r.text)
    ensures r.text == [] <==> forall s | s in TextSpans(page.blocks) :: !Contributes(s, region.rect)
  {
    var texts := BlockTexts(page.blocks, region.rect);
    JoinSpaceOfStripped(texts);
    BlockTextsAreSpanTexts(page.blocks, region.rect);
    SpanTextsEmpty(TextSpans(page.blocks), region.rect);
    RegionText(index, region.name, region.rect, JoinSpace(texts))
  }

  /** The records for one page, one per region in region order. */
  function PageEntries(index: nat, page: PageDict, regions: seq<Region>): (r: seq<RegionText>)
    ensures |r| == |regions|
    ensures forall k | 0 <= k < |regions| :: r[k] == Entry(index, page, regions[k])
  {
    if |regions| == 0 then []
    else PageEntries(index, page, regions[..|regions| - 1]) + [Entry(index, page, regions[|regions| - 1])]
  }

  /** `extract_text_from_regions` over the page dictionaries of a document. */
  function ExtractTextFromRegions(pages: seq<PageDict>, regions: seq<Region>): (r: seq<RegionText>)
    ensures |r| == |pages| * |regions|
  {
    if |pages| == 0 then []
    else
      var n := |pages| - 1;
      assert n * |regions| + |regions| == |pages| * |regions|;
      ExtractTextFromRegions(pages[..n], regions) + PageEntries(n, pages[n], regions)
  }

  // ---------------------------------------------------------------------------
  // Lemmas

  lemma {:induction false} SpanTextsAppend(a: seq<Span>, b: seq<Span>, rect: Rect)
    ensures SpanTexts(a + b, rect) == SpanTexts(a, rect) + SpanTexts(b, rect)
  {
    if |a| == 0 {
      assert a + b == b;
    } else {
      var ab := a + b;
      assert ab[0] == a[0];
      assert ab[1..] == a[1..] + b;
      SpanTextsAppend(a[1..], b, rect);
      calc {
        SpanTexts(ab, rect);
        Contribution(a[0], rect) + SpanTexts(a[1..] + b, rect);
        Contribution(a[0], rect) + (SpanTexts(a[1..], rect) + SpanTexts(b, rect));
        SpanTexts(a, rect) + SpanTexts(b, rect);
      }
    }
  }

  lemma {:induction false} LineTextsAreSpanTexts(lines: seq<Line>, rect: Rect)
    ensures LineTexts(lines, rect) == SpanTexts(LineSpans(lines), rect)
  {
    if |lines| > 0 {
      LineTextsAreSpanTexts(lines[1..], rect);
      SpanTextsAppend(lines[0].spans, LineSpans(lines[1..]), rect);
    }
  }

  /** The nested loops collect the same texts as filtering the flat sequence of
      all spans of text blocks. */
  lemma {:induction false} BlockTextsAreSpanTexts(blocks: seq<Block>, rect: Rect)
    ensures BlockTexts(blocks, rect) == SpanTexts(TextSpans(blocks), rect)
  {
    if |blocks| > 0 {
      BlockTextsAreSpanTexts(blocks[1..], rect);
      if blocks[0].kind == TextBlockType {
        LineTextsAreSpanTexts(blocks[0].lines, rect);
        SpanTextsAppend(LineSpans(blocks[0].lines), TextSpans(blocks[1..]), rect);
      } else {
        assert BlockTexts(blocks, rect) == BlockTexts(blocks[1..], rect);
        assert TextSpans(blocks) == TextSpans(blocks[1..]);
      }
    }
  }

  /** Nothing is collected exactly when no span contributes. */
  lemma {:induction false} SpanTextsEmpty(spans: seq<Span>, rect: Rect)
    ensures SpanTexts(spans, rect) == [] <==> forall s | s in spans :: !Contributes(s, rect)
  {
    if |spans| > 0 {
      SpanTextsEmpty(spans[1..], rect);
      assert forall s | s in spans :: s == spans[0] || s in spans[1..];
    }
  }

  /** A collected text is the stripped text of a contributing span. */
  lemma {:induction false} SpanTextsSound(spans: seq<Span>, rect: Rect)
    ensures forall t | t in SpanTexts(spans, rect) :: exists s | s in spans :: Contributes(s, rect) && t == Strip(s.text)
  {
    if |spans| > 0 {
      SpanTextsSound(spans[1..], rect);
      assert forall s | s in spans[1..] :: s in spans;
    }
  }

  /** A record's text is the stripped texts of the contributing spans of the
      page's text blocks, in block, line and span order, joined by single spaces. */
  lemma EntryText(index: nat, page: PageDict, region: Region)
    ensures Entry(index, page, region).text == JoinSpace(SpanTexts(TextSpans(page.blocks), region.rect))
    ensures forall t | t in SpanTexts(TextSpans(page.blocks), region.rect) ::
      exists s | s in TextSpans(page.blocks) :: Contributes(s, region.rect) && t == Strip(s.text)
  {
    BlockTextsAreSpanTexts(page.blocks, region.rect);
    SpanTextsSound(TextSpans(page.blocks), region.rect);
  }

  lemma {:induction false} BlockTextsAppend(a: seq<Block>, b: seq<Block>, rect: Rect)
    ensures BlockTexts(a + b, rect) == BlockTexts(a, rect) + BlockTexts(b, rect)
  {
    if |a| == 0 {
      assert a + b == b;
    } else {
      assert (a + b)[0] == a[0];
      assert (a + b)[1..] == a[1..] + b;
      BlockTextsAppend(a[1..], b, rect);
    }
  }

  /** A block whose type is not text contributes nothing, wherever it stands. */
  lemma NonTextBlockIgnored(before: seq<Block>, block: Block, after: seq<Block>, rect: Rect)
    requires block.kind != TextBlockType
    ensures BlockTexts(before + [block] + after, rect) == BlockTexts(before + after, rect)
  {
    BlockTextsAppend(before + [block], after, rect);
    BlockTextsAppend(before, [block], rect);
    BlockTextsAppend(before, after, rect);
    assert BlockTexts([block], rect) == [];
  }

  /** `p * m + k`, counted out by addition so that the layout proof stays linear. */
  function Slot(p: nat, k: nat, m: nat): nat {
    if p == 0 then k else m + Slot(p - 1, k, m)
  }

  lemma {:induction false} SlotIsProduct(p: nat, k: nat, m: nat)
    ensures Slot(p, k, m) == p * m + k
  {
    if p > 0 {
      SlotIsProduct(p - 1, k, m);
      assert (p - 1) * m + m == p * m;
    }
  }

  lemma {:induction false} SlotBelow(p: nat, k: nat, n: nat, m: nat)
    requires p < n && k < m
    ensures Slot(p, k, m) < Slot(n, 0, m)
  {
    if p > 0 {
      SlotBelow(p - 1, k, n - 1, m);
    } else if n > 1 {
      SlotBelow(0, k, n - 1, m);
    }
  }

  lemma {:induction false} SlotShift(n: nat, k: nat, m: nat)
    ensures Slot(n, k, m) == Slot(n, 0, m) + k
  {
    if n > 0 {
      SlotShift(n - 1, k, m);
    }
  }

  lemma {:induction false} ExtractionLength(pages: seq<PageDict>, regions: seq<Region>)
    ensures |ExtractTextFromRegions(pages, regions)| == Slot(|pages|, 0, |regions|)
  {
    if |pages| > 0 {
      ExtractionLength(pages[..|pages| - 1], regions);
    }
  }

  /** Layout of the result: one record per page and region, page-major, so the
      record for page `p` and region `k` sits at index `Slot(p, k, |regions|)`,
      that is `p * |regions| + k`, and carries that page's index and that region's
      name, rectangle and text. */
  lemma {:induction false} ExtractionLayout(pages: seq<PageDict>, regions: seq<Region>)
    ensures |ExtractTextFromRegions(pages, regions)| == Slot(|pages|, 0, |regions|)
    ensures forall p, k | 0 <= p < |pages| && 0 <= k < |regions| ::
      && Slot(p, k, |regions|) < |ExtractTextFromRegions(pages, regions)|
      && ExtractTextFromRegions(pages, regions)[Slot(p, k, |regions|)] == Entry(p, pages[p], regions[k])
  {
    ExtractionLength(pages, regions);
    if |pages| > 0 {
      var n := |pages| - 1;
      var m := |regions|;
      var front := ExtractTextFromRegions(pages[..n], regions);
      var last := PageEntries(n, pages[n], regions);
      var r := ExtractTextFromRegions(pages, regions);
      ExtractionLayout(pages[..n], regions);
      assert r == front + last;
      forall p, k | 0 <= p < |pages| && 0 <= k < m
        ensures Slot(p, k, m) < |r| && r[Slot(p, k, m)] == Entry(p, pages[p], regions[k])
      {
        SlotBelow(p, k, |pages|, m);
        var i := Slot(p, k, m);
        if p < n {
          SlotBelow(p, k, n, m);
          assert r[i] == front[i];
          assert front[i] == Entry(p, pages[..n][p], regions[k]);
          assert pages[..n][p] == pages[p];
        } else {
          SlotShift(n, k, m);
          assert r[i] == last[k];
        }
      }
    }
  }

  /** The record for page `p` and region `k` is at index `p * |regions| + k` of the
      result and is that page's record for that region. */
  lemma ExtractionAt(pages: seq<PageDict>, regions: seq<Region>, p: nat, k: nat)
    requires p < |pages| && k < |regions|
    ensures p * |regions| + k < |ExtractTextFromRegions(pages, regions)|
    ensures ExtractTextFromRegions(pages, regions)[p * |regions| + k] == Entry(p, pages[p], regions[k])
  {
    ExtractionLayout(pages, regions);
    SlotIsProduct(p, k, |regions|);
  }
}

=== FILE: region_translator.dfy ===
/** Translation of extracted region texts (region_translator.py).

    Each record keeps its page, region name and rectangle, keeps its text as the
    English text and gains the translation of that text. The translation function
    is a parameter; the server plugs in `HindiOf(service)`. */
module RegionTranslator {
  import opened Geometry
  import opened RegionTextExtractor
  import Translator

  /** One output record: `page`, `region_name`, `rect`, `english_text`, `hindi_text`. */
  datatype TranslatedRegion = TranslatedRegion(
    page: nat, regionName: string, rect: Rect, englishText: string, hindiText: string)

  /** `translate_regions`: one output record per input record, in input order. */
  function TranslateRegions(items: seq<RegionText>, translate: string -> string): (r: seq<TranslatedRegion>)
    ensures |r| == |items|
    ensures forall k | 0 <= k < |items| ::
      && r[k].page == items[k].page
      && r[k].regionName == items[k].regionName
      && r[k].rect == items[k].rect
      && r[k].englishText == items[k].text
      && r[k].hindiText == translate(items[k].text)
  {
    if |items| == 0 then []
    else
      var item := items[|items| - 1];
      TranslateRegions(items[..|items| - 1], translate)
        + [TranslatedRegion(item.page, item.regionName, item.rect, item.text, translate(item.text))]
  }

  /** The extracted record a translated record came from. */
  function Original(t: TranslatedRegion): RegionText {
    RegionText(t.page, t.regionName, t.rect, t.englishText)
  }

  function Originals(ts: seq<TranslatedRegion>): seq<RegionText> {
    if |ts| == 0 then [] else Originals(ts[..|ts| - 1]) + [Original(ts[|ts| - 1])]
  }

  /** Dropping the translations gives back exactly the extracted records: the
      mapping loses, reorders and alters nothing. */
  lemma {:induction false} OriginalsOfTranslation(items: seq<RegionText>, translate: string -> string)
    ensures Originals(TranslateRegions(items, translate)) == items
  {
    if |items| > 0 {
      var n := |items| - 1;
      OriginalsOfTranslation(items[..n], translate);
      var r := TranslateRegions(items, translate);
      assert r[..n] == TranslateRegions(items[..n], translate);
      assert items[..n] + [items[n]] == items;
    }
  }

  /** The translation `region_translator.py` uses: `translate_to_hindi` over the
      translation service `service`. */
  function HindiOf(service: string -> string): string -> string {
    t => Translator.TranslateToHindi(t, service).text
  }

  /** With a service that returns its input, every Hindi text equals the English
      text it was made from, numbers included. */
  lemma IdentityServiceKeepsText(items: seq<RegionText>)
    ensures forall k | 0 <= k < |items| ::
      TranslateRegions(items, HindiOf(t => t))[k].hindiText == items[k].text
  {
    forall k | 0 <= k < |items|
      ensures TranslateRegions(items, HindiOf(t => t))[k].hindiText == items[k].text
    {
      Translator.IdentityTranslation(items[k].text);
    }
  }
}

=== FILE: text.dfy ===
/** The string helpers of Python that the server code relies on: `str.isspace`,
    `str.strip` and `" ".join`. Strings are sequences of code points. */
module Text {

  /** Python's `str.isspace` on one code point: the ASCII controls tab to carriage
      return, the separators 0x1C-0x1F, space, and the Unicode space separators. */
  predicate IsSpace(c: char) {
    || c == ' '
    || '\t' <= c <= '\r'
    || '\U{1C}' <= c <= '\U{1F}'
    || c == '\U{85}'
    || c == '\U{A0}'
    || c == '\U{1680}'
    || '\U{2000}' <= c <= '\U{200A}'
    || c == '\U{2028}'
    || c == '\U{2029}'
    || c == '\U{202F}'
    || c == '\U{205F}'
    || c == '\U{3000}'
  }

  /** Every character is whitespace; Python's `not s.strip()`. */
  predicate IsBlank(s: string) {
    forall k | 0 <= k < |s| :: IsSpace(s[k])
  }

  /** Neither end of `s` is whitespace. */
  predicate IsStripped(s: string) {
    |s| == 0 || (!IsSpace(s[0]) && !IsSpace(s[|s| - 1]))
  }

  /** `s[i..j]` is a stripped core of `s` whose margins are whitespace only. */
  predicate StripsTo(s: string, i: nat, j: nat) {
    && i <= j <= |s|
    && (forall k | 0 <= k < i :: IsSpace(s[k]))
    && (forall k | j <= k < |s| :: IsSpace(s[k]))
    && IsStripped(s[i..j])
  }

  /** Python's `s.strip()`: whitespace is removed from both ends. */
  function Strip(s: string): (r: string)
    ensures IsStripped(r)
    ensures r == [] <==> IsBlank(s)
    ensures |r| <= |s|
    decreases |s|
  {
    if |s| == 0 then s
    else if IsSpace(s[0]) then
      assert forall k | 1 <= k < |s| :: s[k] == s[1..][k - 1];
      Strip(s[1..])
    else if IsSpace(s[|s| - 1]) then
      assert forall k | 0 <= k < |s| - 1 :: s[k] == s[..|s| - 1][k];
      Strip(s[..|s| - 1])
    else s
  }

  /** `Strip` is the unique whitespace-margin trimming that leaves a stripped core:
      whichever margins `i` and `j` remove only whitespace and leave no whitespace at
      either end, `Strip(s)` is exactly `s[i..j]`. */
  lemma {:induction false} StripCharacterized(s: string, i: nat, j: nat)
    requires StripsTo(s, i, j)
    ensures Strip(s) == s[i..j]
    decreases |s|
  {
    if i == j {
      assert IsBlank(s);
    } else {
      assert s[i..j][0] == s[i];
      assert s[i..j][j - i - 1] == s[j - 1];
      if IsSpace(s[0]) {
        var t := s[1..];
        assert t[i - 1..j - 1] == s[i..j];
        assert forall k | 0 <= k < |t| :: t[k] == s[k + 1];
        StripCharacterized(t, i - 1, j - 1);
      } else if IsSpace(s[|s| - 1]) {
        var t := s[..|s| - 1];
        assert t[i..j] == s[i..j];
        assert forall k | 0 <= k < |t| :: t[k] == s[k];
        StripCharacterized(t, i, j);
      } else {
        assert s[i..j] == s;
      }
    }
  }

  /** Python's `" ".join(parts)`. */
  function JoinSpace(parts: seq<string>): string {
    if |parts| == 0 then ""
    else if |parts| == 1 then parts[0]
    else parts[0] + " " + JoinSpace(parts[1..])
  }

  /** Joining builds up left to right, one separator per extra part, as the
      accumulating loop of the source collects texts before joining them. */
  lemma {:induction false} JoinSpaceSnoc(parts: seq<string>, last: string)
    requires |parts| > 0
    ensures JoinSpace(parts + [last]) == JoinSpace(parts) + " " + last
  {
    if |parts| == 1 {
      assert parts + [last] == [parts[0], last];
    } else {
      assert (parts + [last])[1..] == parts[1..] + [last];
      JoinSpaceSnoc(parts[1..], last);
    }
  }

  /** Joining non-empty stripped parts gives the empty string exactly for no parts,
      and otherwise a stripped string. */
  lemma {:induction false} JoinSpaceOfStripped(parts: seq<string>)
    requires forall k | 0 <= k < |parts| :: parts[k] != [] && IsStripped(parts[k])
    ensures JoinSpace(parts) == [] <==> |parts| == 0
    ensures IsStripped(JoinSpace(parts))
  {
    if |parts| > 1 {
      JoinSpaceOfStripped(parts[1..]);
      var rest := JoinSpace(parts[1..]);
      assert (parts[0] + " " + rest)[0] == parts[0][0];
      assert rest != [];
      assert (parts[0] + " " + rest)[|parts[0] + " " + rest| - 1] == rest[|rest| - 1];
    }
  }
}

=== FILE: translator.dfy ===
/** Hindi translation with number protection (translator.py).

    Before a text goes to the translation service every run of digits `d` is
    replaced by the placeholder `__NUM_d__`, so that the service cannot localise
    or reorder the figures; afterwards every placeholder is replaced by its digits
    again. The service itself is the parameter `translate`, an arbitrary function
    on strings. `\d` is read as the ASCII digits. */
module Translator {
  import opened Text
  import opened Wrappers

  predicate IsDigit(c: char) {
    '0' <= c <= '9'
  }

  predicate AllDigits(s: string) {
    forall k | 0 <= k < |s| :: IsDigit(s[k])
  }

  const Open: string := "__NUM_"
  const Close: string := "__"

  /** The placeholder that stands for the digit run `d` during translation. */
  function Wrap(d: string): string {
    Open + d + Close
  }

  /** A whole placeholder: `__NUM_`, one or more digits, `__`. */
  predicate IsPlaceholder(t: string) {
    && |t| > |Open| + |Close|
    && t[..|Open|] == Open
    && t[|t| - |Close|..] == Close
    && AllDigits(t[|Open|..|t| - |Close|])
  }

  /** Length of the longest all-digit prefix of `s`. */
  function DigitRun(s: string): (n: nat)
    ensures n <= |s|
    ensures forall k | 0 <= k < n :: IsDigit(s[k])
    ensures n < |s| ==> !IsDigit(s[n])
  {
    if |s| > 0 && IsDigit(s[0]) then 1 + DigitRun(s[1..]) else 0
  }

  /** Number protection: scanning left to right,
      each maximal digit run is wrapped and every other character is copied. */
  function Protect(s: string): string
    decreases |s|
  {
    if |s| == 0 then ""
    else if IsDigit(s[0]) then
      var n := DigitRun(s);
      Wrap(s[..n]) + Protect(s[n..])
    else [s[0]] + Protect(s[1..])
  }

  /** Where the pattern `__NUM_(\d+)__` matches at the start of `s`: the length of
      its digit group. `\d+` is greedy and must be followed by `__`, which is not a
      digit, so backtracking never yields a shorter match. */
  function PlaceholderAt(s: string): (r: Option<nat>)
    ensures r.Some? ==> 0 < r.value && |Open| + r.value + |Close| <= |s|
    ensures r.Some? ==> IsPlaceholder(s[..|Open| + r.value + |Close|])
  {
    if |Open| <= |s| && s[..|Open|] == Open then
      var n := DigitRun(s[|Open|..]);
      var end := |Open| + n;
      if 0 < n && end + |Close| <= |s| && s[end..end + |Close|] == Close then
        var t := s[..end + |Close|];
        assert t[..|Open|] == s[..|Open|];
        assert t[|Open|..|t| - |Close|] == s[|Open|..][..n];
        assert AllDigits(s[|Open|..][..n]);
        assert t[|t| - |Close|..] == s[end..end + |Close|];
        assert IsPlaceholder(t);
        Some(n)
      else None
    else None
  }

  /** Number restoration: scanning left to right, each matching
      placeholder is replaced by its digits; elsewhere one character is copied and
      the scan moves on by one. */
  function Restore(s: string): string
    decreases |s|
  {
    if |s| == 0 then ""
    else match PlaceholderAt(s)
      case Some(n) => s[|Open|..|Open| + n] + Restore(s[|Open| + n + |Close|..])
      case None => [s[0]] + Restore(s[1..])
  }

  /** The result of `translate_to_hindi`, together with the strings sent to the
      translation service (at most one request). */
  datatype Translation = Translation(text: string, requests: seq<string>)

  /** `translate_to_hindi`: a blank text is returned as it is without calling the
      service; otherwise the protected text is translated and then restored. */
  function TranslateToHindi(text: string, translate: string -> string): (r: Translation)
    ensures r.requests == [] <==> IsBlank(text)
    ensures IsBlank(text) ==> r.text == text
    ensures |r.requests| <= 1
    ensures !IsBlank(text) ==> r.requests == [Protect(text)]
    ensures forall q | q in r.requests :: Restore(q) == text
    ensures forall q | q in r.requests :: r.text == Restore(translate(q))
  {
    if Strip(text) == [] then Translation(text, [])
    else
      var protected := Protect(text);
      RestoreProtect(text);
      Translation(Restore(translate(protected)), [protected])
  }

  // ---------------------------------------------------------------------------
  // Digit runs

  /** The digit run of a concatenation: it stays inside `a` unless `a` is all digits. */
  lemma {:induction false} DigitRunAppend(a: string, b: string)
    ensures DigitRun(a + b) == if DigitRun(a) < |a| then DigitRun(a) else |a| + DigitRun(b)
  {
    if |a| > 0 {
      assert (a + b)[0] == a[0];
      if IsDigit(a[0]) {
        assert (a + b)[1..] == a[1..] + b;
        DigitRunAppend(a[1..], b);
      }
    } else {
      assert a + b == b;
    }
  }

  lemma {:induction false} DigitRunOfDigits(d: string)
    requires AllDigits(d)
    ensures DigitRun(d) == |d|
  {
    if |d| > 0 {
      DigitRunOfDigits(d[1..]);
    }
  }

  // ---------------------------------------------------------------------------
  // Protection

  /** A single digit run becomes exactly its placeholder. */
  lemma ProtectRun(d: string)
    requires |d| > 0 && AllDigits(d)
    ensures Protect(d) == Wrap(d)
  {
    DigitRunOfDigits(d);
    assert d[..|d|] == d;
    assert d[|d|..] == "";
  }

  /** A character that is not a digit is copied as it is. */
  lemma ProtectKeeps(c: char)
    requires !IsDigit(c)
    ensures Protect([c]) == [c]
  {
    assert [c][1..] == "";
  }

  /** Cutting between `a` and `b` does not split a digit run. */
  predicate RunBoundary(a: string, b: string) {
    |a| == 0 || |b| == 0 || !IsDigit(a[|a| - 1]) || !IsDigit(b[0])
  }

  /** Protection works piecewise when the cut does not split a digit run. */
  lemma {:induction false} ProtectAppend(a: string, b: string)
    requires RunBoundary(a, b)
    ensures Protect(a + b) == Protect(a) + Protect(b)
    decreases |a|, 1
  {
    if |a| == 0 {
      assert a + b == b;
    } else if IsDigit(a[0]) {
      ProtectAppendDigitHead(a, b);
    } else {
      var s := a + b;
      assert s[0] == a[0];
      assert s[1..] == a[1..] + b;
      assert |a| > 1 ==> a[1..][|a[1..]| - 1] == a[|a| - 1];
      ProtectAppend(a[1..], b);
    }
  }

  lemma {:induction false} ProtectAppendDigitHead(a: string, b: string)
    requires RunBoundary(a, b)
    requires |a| > 0 && IsDigit(a[0])
    ensures Protect(a + b) == Protect(a) + Protect(b)
    decreases |a|, 0
  {
    var m := DigitRun(a);
    if m < |a| {
      assert a[m..][|a[m..]| - 1] == a[|a| - 1];
      ProtectAppend(a[m..], b);
      ProtectAppendAfterRun(a, b);
    } else {
      ProtectAppendWholeRun(a, b);
    }
  }

  /** The leading digit run of `a` ends inside `a`: protection of `a + b` starts
      with the same placeholder as that of `a`. */
  lemma ProtectAppendAfterRun(a: string, b: string)
    requires |a| > 0 && IsDigit(a[0]) && DigitRun(a) < |a|
    requires Protect(a[DigitRun(a)..] + b) == Protect(a[DigitRun(a)..]) + Protect(b)
    ensures Protect(a + b) == Protect(a) + Protect(b)
  {
    var s := a + b;
    var m := DigitRun(a);
    DigitRunAppend(a, b);
    assert DigitRun(s) == m;
    ProtectDigitHead(s);
    ProtectDigitHead(a);
    SliceSplit(a, b, m);
    ConcatAssoc(Wrap(a[..m]), Protect(a[m..]), Protect(b));
  }

  /** Cutting a concatenation inside its first part. */
  lemma SliceSplit<T>(a: seq<T>, b: seq<T>, m: nat)
    requires m <= |a|
    ensures (a + b)[..m] == a[..m] && (a + b)[m..] == a[m..] + b
  {
  }

  lemma ConcatAssoc<T>(a: seq<T>, b: seq<T>, c: seq<T>)
    ensures a + (b + c) == a + b + c
  {
  }

  /** `a` is one digit run and `b` does not continue it. */
  lemma ProtectAppendWholeRun(a: string, b: string)
    requires RunBoundary(a, b)
    requires |a| > 0 && IsDigit(a[0]) && DigitRun(a) == |a|
    ensures Protect(a + b) == Protect(a) + Protect(b)
  {
    var s := a + b;
    var m := DigitRun(a);
    DigitRunAppend(a, b);
    assert DigitRun(s) == m;
    ProtectDigitHead(s);
    ProtectDigitHead(a);
    assert s[..m] == a && s[m..] == b;
    assert a[..m] == a && a[m..] == "";
  }

  /** One step of protection at a leading digit. */
  lemma ProtectDigitHead(s: string)
    requires |s| > 0 && IsDigit(s[0])
    ensures Protect(s) == Wrap(s[..DigitRun(s)]) + Protect(s[DigitRun(s)..])
  {
  }

  /** Protection replaces a maximal digit run `d`, wherever it stands, by its
      placeholder, and treats what surrounds it independently. */
  lemma {:induction false} ProtectReplacesRun(x: string, d: string, y: string)
    requires |d| > 0 && AllDigits(d)
    requires |x| == 0 || !IsDigit(x[|x| - 1])
    requires |y| == 0 || !IsDigit(y[0])
    ensures Protect(x + d + y) == Protect(x) + Wrap(d) + Protect(y)
  {
    var dy := d + y;
    assert x + d + y == x + dy;
    ProtectAppend(x, dy);
    ProtectAppend(d, y);
    ProtectRun(d);
    calc {
      Protect(x + d + y);
      Protect(x) + Protect(dy);
      Protect(x) + (Wrap(d) + Protect(y));
      Protect(x) + Wrap(d) + Protect(y);
    }
  }

  /** A text without digits passes protection unchanged. */
  lemma {:induction false} ProtectWithoutDigits(s: string)
    requires forall k | 0 <= k < |s| :: !IsDigit(s[k])
    ensures Protect(s) == s
  {
    if |s| > 0 {
      ProtectWithoutDigits(s[1..]);
    }
  }

  /** The first six characters of a protected text are never digits: a digit is
      always preceded by the `__NUM_` of its own placeholder. */
  lemma {:induction false} NoEarlyDigit(s: string)
    ensures forall k | 0 <= k < |Protect(s)| && k < |Open| :: !IsDigit(Protect(s)[k])
    decreases |s|
  {
    if |s| > 0 {
      if IsDigit(s[0]) {
        var n := DigitRun(s);
        assert Protect(s)[..|Open|] == Open;
      } else {
        var rest := Protect(s[1..]);
        NoEarlyDigit(s[1..]);
        assert forall k | 1 <= k < |Protect(s)| :: Protect(s)[k] == rest[k - 1];
      }
    }
  }

  lemma OpenCloseHaveNoDigits()
    ensures forall k | 0 <= k < |Open| :: !IsDigit(Open[k])
    ensures forall k | 0 <= k < |Close| :: !IsDigit(Close[k])
  {
    assert Open == ['_', '_', 'N', 'U', 'M', '_'];
    assert Close == ['_', '_'];
  }

  /** `r[a..b]` is the digit group of a placeholder of `r`. */
  predicate PlaceholderSpan(r: string, a: int, b: int) {
    && |Open| <= a < b
    && b + |Close| <= |r|
    && r[a - |Open|..a] == Open
    && AllDigits(r[a..b])
    && r[b..b + |Close|] == Close
  }

  /** Position `k` of `r` lies in the digit group of some placeholder. */
  ghost predicate InPlaceholder(r: string, k: int) {
    exists a, b :: PlaceholderSpan(r, a, b) && a <= k < b
  }

  lemma SpanShift(x: string, r: string, a: int, b: int)
    requires PlaceholderSpan(r, a, b)
    ensures PlaceholderSpan(x + r, a + |x|, b + |x|)
  {
    var s := x + r;
    assert s[a + |x| - |Open|..a + |x|] == r[a - |Open|..a];
    assert s[a + |x|..b + |x|] == r[a..b];
    assert s[b + |x|..b + |x| + |Close|] == r[b..b + |Close|];
  }

  /** After protection every digit lies inside a `__NUM_…__` placeholder, so the
      translation service never sees a bare number. */
  lemma {:induction false} ProtectedDigitsArePlaceholders(s: string)
    ensures forall k | 0 <= k < |Protect(s)| && IsDigit(Protect(s)[k]) :: InPlaceholder(Protect(s), k)
    decreases |s|
  {
    if |s| > 0 {
      var p := Protect(s);
      if IsDigit(s[0]) {
        var n := DigitRun(s);
        var w := Wrap(s[..n]);
        var rest := Protect(s[n..]);
        ProtectedDigitsArePlaceholders(s[n..]);
        assert p == w + rest;
        assert PlaceholderSpan(p, |Open|, |Open| + n) by {
          assert p[0..|Open|] == Open;
          assert p[|Open|..|Open| + n] == s[..n];
          assert p[|Open| + n..|Open| + n + |Close|] == Close;
        }
        assert forall k | 0 <= k < |Open| :: p[k] == Open[k];
        assert forall k | |Open| + n <= k < |w| :: p[k] == Close[k - |Open| - n];
        OpenCloseHaveNoDigits();
        forall k | 0 <= k < |p| && IsDigit(p[k])
          ensures InPlaceholder(p, k)
        {
          if k < |w| {
          } else {
            assert p[k] == rest[k - |w|];
            var a, b :| PlaceholderSpan(rest, a, b) && a <= k - |w| < b;
            SpanShift(w, rest, a, b);
          }
        }
      } else {
        var rest := Protect(s[1..]);
        ProtectedDigitsArePlaceholders(s[1..]);
        forall k | 0 <= k < |p| && IsDigit(p[k])
          ensures InPlaceholder(p, k)
        {
          assert k > 0;
          assert p[k] == rest[k - 1];
          var a, b :| PlaceholderSpan(rest, a, b) && a <= k - 1 < b;
          SpanShift([s[0]], rest, a, b);
        }
      }
    }
  }

  // ---------------------------------------------------------------------------
  // Restoration

  /** The placeholder pattern matches at the start of `s` exactly when some prefix
      of `s` is a whole placeholder, and then it consumes exactly that prefix. */
  lemma PlaceholderAtExact(s: string, m: nat)
    requires m <= |s|
    ensures IsPlaceholder(s[..m]) <==> PlaceholderAt(s) == Some(m - |Open| - |Close|)
  {
    var t := s[..m];
    if IsPlaceholder(t) {
      var d := t[|Open|..m - |Close|];
      assert s[..|Open|] == t[..|Open|];
      assert s[|Open|..] == d + s[m - |Close|..];
      assert s[m - |Close|] == t[m - |Close|] == '_';
      DigitRunOfDigits(d);
      DigitRunAppend(d, s[m - |Close|..]);
      assert s[m - |Close|..m] == t[m - |Close|..];
    }
  }

  /** A text in which no infix is a placeholder is left unchanged by restoration. */
  ghost predicate ContainsPlaceholder(s: string) {
    exists i, j | 0 <= i <= j <= |s| :: IsPlaceholder(s[i..j])
  }

  lemma PlaceholderAtIsInfix(s: string)
    ensures PlaceholderAt(s).Some? ==>
      var end := |Open| + PlaceholderAt(s).value + |Close|;
      end <= |s| && IsPlaceholder(s[0..end])
  {
    if PlaceholderAt(s).Some? {
      var end := |Open| + PlaceholderAt(s).value + |Close|;
      assert s[0..end] == s[..end];
    }
  }

  lemma {:induction false} RestoreWithoutPlaceholder(s: string)
    requires !ContainsPlaceholder(s)
    ensures Restore(s) == s
    decreases |s|
  {
    if |s| > 0 {
      PlaceholderAtIsInfix(s);
      match PlaceholderAt(s)
      case Some(n) =>
        assert false;
      case None =>
        forall i, j | 0 <= i <= j <= |s| - 1
          ensures !IsPlaceholder(s[1..][i..j])
        {
          assert s[1..][i..j] == s[i + 1..j + 1];
        }
        RestoreWithoutPlaceholder(s[1..]);
    }
  }

  /** A wrapped digit run at the front is matched whole, whatever follows it. */
  lemma PlaceholderAtWrap(d: string, rest: string)
    requires d != [] && AllDigits(d)
    ensures PlaceholderAt(Wrap(d) + rest) == Some(|d|)
  {
    var p := Wrap(d) + rest;
    var n := |d|;
    assert p[..|Open|] == Open;
    assert p[|Open|..] == d + (Close + rest);
    assert (Close + rest)[0] == '_';
    DigitRunOfDigits(d);
    DigitRunAppend(d, Close + rest);
    assert p[|Open| + n..|Open| + n + |Close|] == Close;
  }

  /** A protected text behind a character that is not a digit holds no match at
      the front: its own first characters are never digits. */
  lemma PlaceholderAtNonDigitHead(c: char, s: string)
    requires !IsDigit(c)
    ensures PlaceholderAt([c] + Protect(s)) == None
  {
    var rest := Protect(s);
    var p := [c] + rest;
    NoEarlyDigit(s);
    if |Open| <= |p| && p[..|Open|] == Open {
      assert |p| > |Open| ==> p[|Open|] == rest[|Open| - 1];
      assert DigitRun(p[|Open|..]) == 0;
    }
  }

  /** Round trip: restoring a protected text gives the text back, so a translation
      service that returns its input unchanged leaves every text unchanged. */
  lemma {:induction false} RestoreProtect(s: string)
    ensures Restore(Protect(s)) == s
    decreases |s|
  {
    if |s| > 0 {
      var p := Protect(s);
      if IsDigit(s[0]) {
        var n := DigitRun(s);
        var d := s[..n];
        ProtectDigitHead(s);
        assert AllDigits(d) by {
          forall k | 0 <= k < |d| ensures IsDigit(d[k]) {
            assert d[k] == s[k];
          }
        }
        RestoreFront(d, Protect(s[n..]));
        RestoreProtect(s[n..]);
        assert d + s[n..] == s;
      } else {
        assert p == [s[0]] + Protect(s[1..]);
        PlaceholderAtNonDigitHead(s[0], s[1..]);
        RestoreCopies(p);
        assert p[0] == s[0] && p[1..] == Protect(s[1..]);
        RestoreProtect(s[1..]);
        assert [s[0]] + s[1..] == s;
      }
    }
  }

  /** With a translation service that returns its input, `translate_to_hindi` is
      the identity on every text. */
  lemma IdentityTranslation(text: string)
    ensures TranslateToHindi(text, t => t).text == text
  {
    if Strip(text) != [] {
      RestoreProtect(text);
    }
  }

  /** What the service receives never contains a digit outside a placeholder. */
  lemma ServiceSeesNoBareDigits(text: string, translate: string -> string)
    ensures forall q | q in TranslateToHindi(text, translate).requests ::
      forall k | 0 <= k < |q| && IsDigit(q[k]) :: InPlaceholder(q, k)
  {
    ProtectedDigitsArePlaceholders(text);
  }

  /** The result is the service's reply to the protected text with its
      placeholders turned back into digits; a reply without placeholders is
      returned exactly as the service gave it. */
  lemma ReplyIsReturned(text: string, translate: string -> string)
    requires !IsBlank(text)
    requires !ContainsPlaceholder(translate(Protect(text)))
    ensures TranslateToHindi(text, translate).text == translate(Protect(text))
  {
    RestoreWithoutPlaceholder(translate(Protect(text)));
  }

  /** Where no placeholder matches, restoration copies one character and moves on. */
  lemma RestoreCopies(s: string)
    requires |s| > 0 && PlaceholderAt(s).None?
    ensures Restore(s) == [s[0]] + Restore(s[1..])
  {
  }

  /** A placeholder at the front is replaced by its digits. */
  lemma RestoreFront(d: string, y: string)
    requires d != [] && AllDigits(d)
    ensures Restore(Wrap(d) + y) == d + Restore(y)
  {
    var s := Wrap(d) + y;
    PlaceholderAtWrap(d, y);
    assert s[|Open|..|Open| + |d|] == d;
    assert s[|Open| + |d| + |Close|..] == y;
  }

  /** Restoration of any text: scanning from the left, when the first match of the
      placeholder pattern starts right after `x`, the text `x` before it is copied,
      the placeholder is replaced by its digits, and the scan resumes after it. */
  lemma {:induction false} RestoreReplacesPlaceholder(x: string, d: string, y: string)
    requires d != [] && AllDigits(d)
    requires forall i | 0 <= i < |x| :: PlaceholderAt(x[i..] + Wrap(d) + y).None?
    ensures Restore(x + Wrap(d) + y) == x + d + Restore(y)
    decreases |x|
  {
    if |x| == 0 {
      assert x + Wrap(d) + y == Wrap(d) + y;
      RestoreFront(d, y);
    } else {
      NoMatchInTail(x, d, y);
      RestoreReplacesPlaceholder(x[1..], d, y);
      RestoreStepPast(x, d, y);
    }
  }

  /** One step of `RestoreReplacesPlaceholder`: with no match at the front, the
      first character of `x` is copied and the rest is restored. */
  lemma RestoreStepPast(x: string, d: string, y: string)
    requires |x| > 0
    requires PlaceholderAt(x + Wrap(d) + y).None?
    requires Restore(x[1..] + Wrap(d) + y) == x[1..] + d + Restore(y)
    ensures Restore(x + Wrap(d) + y) == x + d + Restore(y)
  {
    var s := x + Wrap(d) + y;
    RestoreCopies(s);
    ConsSplit(x, Wrap(d), y);
    ConsJoin(x, d, Restore(s), Restore(s[1..]), Restore(y));
  }

  /** Putting the first element back in front of a three-part concatenation. */
  lemma ConsJoin<T>(x: seq<T>, d: seq<T>, whole: seq<T>, tail: seq<T>, rest: seq<T>)
    requires |x| > 0 && whole == [x[0]] + tail && tail == x[1..] + d + rest
    ensures whole == x + d + rest
  {
    assert x == [x[0]] + x[1..];
  }

  /** Splitting off the first element of a three-part concatenation. */
  lemma ConsSplit<T>(a: seq<T>, b: seq<T>, c: seq<T>)
    requires |a| > 0
    ensures (a + b + c)[0] == a[0] && (a + b + c)[1..] == a[1..] + b + c
  {
  }

  /** The no-match condition of `RestoreReplacesPlaceholder` holds at the first
      position and for the rest of `x`. */
  lemma NoMatchInTail(x: string, d: string, y: string)
    requires |x| > 0
    requires forall i | 0 <= i < |x| :: PlaceholderAt(x[i..] + Wrap(d) + y).None?
    ensures PlaceholderAt(x + Wrap(d) + y).None?
    ensures forall i | 0 <= i < |x[1..]| :: PlaceholderAt(x[1..][i..] + Wrap(d) + y).None?
  {
    assert x[0..] == x;
    forall i | 0 <= i < |x[1..]|
      ensures PlaceholderAt(x[1..][i..] + Wrap(d) + y).None?
    {
      assert x[1..][i..] == x[i + 1..];
    }
  }

  /** A reply that mixes a bare digit with a placeholder: the placeholder is
      restored and the bare digit is kept. */
  lemma RestoreMixedReply()
    ensures Restore("5 __NUM_3__") == "5 3"
  {
    var x, d := "5 ", "3";
    forall i | 0 <= i < |x|
      ensures PlaceholderAt(x[i..] + Wrap(d) + "").None?
    {
      var t := x[i..] + Wrap(d) + "";
      assert t[0] != '_';
      assert t[..|Open|][0] == t[0];
    }
    assert x + Wrap(d) + "" == "5 __NUM_3__";
    RestoreReplacesPlaceholder(x, d, "");
  }
}

=== FILE: wrappers.dfy ===
/** Optional values: the source's `null`, `None` and missing dictionary keys. */
module Wrappers {

  /** Either nothing or one value. */
  datatype Option<T> = None | Some(value: T)

  /** The value held by `o`, or `fallback` when `o` holds nothing; a dictionary
      read with a default value is `OrElse(lookup, default)`. */
  function OrElse<T>(o: Option<T>, fallback: T): (r: T)
    ensures o.Some? ==> r == o.value
    ensures o.None? ==> r == fallback
  {
    if o.Some? then o.value else fallback
  }
}
